=== FILE: README.md ===
# mmWave radar processing core, modelled in Dafny

This project models the signal-processing core of a Python toolkit for TI
mmWave radars (IWR6843ISK-ODS and IWR1843). It covers three parts.

- **Configuration resolver** (`params.py`). The 39-line configuration script is
  read into a dictionary of numbers (`parse_config_file`). Every physical
  constant the pipeline uses is derived from that dictionary (`parse_config`):
  wavelength, chirp timing, range bin and maximum range, Doppler bin and maximum
  speed, and the angle bin counts. Record mode reads the script; playback mode
  takes a saved dictionary (`set_record_mode`, `set_playback_mode`).
- **Fourier stages** (`fourier.py`), modelled structurally:
  - the range FFT, its near-field clearing, and the device-specific placement of
    the 12 virtual antennas in the radar cube (`rangeFFT`);
  - the four-fold padded range-Doppler FFT, averaged over antennas and shifted
    so zero velocity sits mid-axis (`dopplerFFT`);
  - the 32 × 64 angle FFT, shifted on both axes and averaged into azimuth and
    elevation profiles (`angleFFT`);
  - the bin axes built with numpy's `linspace`;
  - the `vstack`-based product table `matlabMultip`.
- **Capon beamforming** (`capon.py`): the spatial covariance (`cov_matrix`), the
  forward-backward average (`forward_backward_avg`), and the Capon (MVDR)
  spectrum and weights (`aoa_capon`).

## How it is modelled

- The global mutable `PARAMS` singleton becomes the immutable record
  `Params.RadarParams`. Each operation that reads it takes it as an argument.
- Python exceptions become `Errors.Result` values with one error kind per cause:
  - `KeyError` becomes `MissingKey`;
  - `ZeroDivisionError` becomes `DivisionByZero`;
  - `IndexError` becomes `MalformedLine` (a line without " = "),
    `IndexOutOfRange` (too few antenna rows in `rangeFFT`, or the empty `f[0]`
    of `matlabMultip`, fourier.py:120) or `MissingAxis` (`x.shape[1]` of a
    one-dimensional input to `cov_matrix`, capon.py:136);
  - the `ValueError` of `float()` becomes `BadNumber`;
  - numpy's `ValueError`s become `EmptyTransform` (a zero-point FFT),
    `NegativeCount` (a negative `linspace` count) and `ShapeMismatch` (a failed
    matrix product);
  - the `ValueError` that `aoa_capon` raises itself when the steering vectors do
    not match the antenna count (capon.py:43-45) becomes `ShapeMismatch` too;
  - the `ValueError` that `cov_matrix` raises itself becomes `TooManyDimensions`
    (capon.py:133-134);
  - the bare `Exception` of `matlabMultip` becomes `NotOneDimensional`
    (fourier.py:125);
  - the `UnboundLocalError` of `rangeFFT` for an unknown device becomes
    `UnknownDevice` (fourier.py:49);
  - `LinAlgError` becomes `SingularMatrix`;
  - the failed `assert` becomes `NotSquare`;
  - `EmptyAverage` marks a mean over an empty axis. numpy raises nothing there
    and returns NaN; the model reports it as an error instead.
- Complex numbers are pairs of exact reals (`ComplexNumbers`).
- numpy arrays are nested sequences. An inner dimension that a nested sequence
  loses when the outer one is empty is passed as an explicit `nat`.
- Arrays whose rank is only known at run time are modelled by `NdArrays.NdArray`.
- The numerical kernels are function parameters, constrained only by the shapes they return:
  - FFT and 2-D FFT;
  - `abs`, `arcsin`, `inv` and `reciprocal`;
  - Python's `float()` on a string.
- The file becomes the sequence of lines `readline()` would return.

Some consequences of the code that the model makes explicit:

- `parse_config` fails only on a missing key or a zero divisor. It only
  multiplies and divides by the values it reads, so negative frequencies,
  slopes or durations pass.
- The angle grid `linspace(-N/2, N/2-1, N)·2/N` runs from −1 to 1 − 2/N, so it
  has one more point below zero than above it.
- The range axis `linspace(0, R_MAX, NUM_RANGE_BINS)` includes both ends, so
  its spacing is R_MAX/(N − 1), which is R_BIN·N/(N − 1) rather than R_BIN.
- R_MAX_UNAMBIGUOUS is below R_MAX only when R_MAX is positive. A successful
  parse does not imply that; a positive bandwidth together with a positive
  ADC_SAMPLES count does.
- A configuration file shorter than 39 lines always fails. Past the end,
  `readline()` gives "", which is neither a comment nor a blank line, so
  indexing `elems[1]` fails.

## Model

| member | source | states |
|---|---|---|
| `ConfigFile.ReadLines` | params.py:103-104 | Exactly 39 lines are read; line i is the file's line i, or "" once the file is exhausted. |
| `ConfigFile.ParseLine` | params.py:105-110 | Comment and blank lines are ignored. A line without " = " is ignored when it is a computed key (NUM_TX, END_CHIRP_TX); otherwise it is malformed. A line with " = " is ignored when its first piece is a computed key; otherwise it is an assignment exactly when the value text parses, and fails as a bad number when it does not. An assignment's key is the text before the first " = " (no occurrence starts inside it), is never a computed key, and its value is the parsed text after the first " = ", cut at the next " = " and at the first " -". |
| `ConfigFile.ApplyFailsExactly` | params.py:103-110 | The read loop fails if and only if one of its lines fails. |
| `ConfigFile.LastAssignmentWins` | params.py:110 | When several lines assign a key, the dictionary holds the value of the last one. |
| `ConfigFile.KeptWhenUnassigned` | params.py:103-110 | A key that no line assigns keeps its earlier presence and value. |
| `ConfigFile.ApplyErrorIsLineError` | params.py:106-110 | The loop's error is the error of its first failing line, every earlier line succeeding; so it is a malformed line or a bad number, never anything else. |
| `ConfigFile.ParseConfigFile` | params.py:99-116 | Success if and only if the loop succeeds and all three TX enable flags were read. A failing loop passes its own error on; otherwise a missing flag fails with MissingKey for the first absent of TX0_EN, TX1_EN, TX2_EN. On success NUM_TX is the sum of the flags and END_CHIRP_TX is NUM_TX − 1. |
| `ConfigFile.FirstAbsent` | params.py:113 | The first key of a list that the dictionary lacks: none exactly when all are present; otherwise an absent key with every earlier key present. |
| `ConfigFile.ParsedValueIsLastAssignment` | params.py:99-116 | Every non-computed key of the result holds the value of the last of the 39 read lines that assigns it. |
| `ConfigFile.UnassignedKeyIsAbsent` | params.py:99-116 | A non-computed key that no read line assigns is absent from the result. |
| `ConfigFile.ShortFileFails` | params.py:103-110 | A file of fewer than 39 lines fails with a malformed-line or bad-number error. |
| `ConfigFile.OnlyFirstLinesMatter` | params.py:103 | Lines after the 39th have no effect on the result. |
| `Text.SplitJoin` | params.py:106 | Joining the pieces of `str.split(sep)` with sep gives back the original string. |
| `Text.SplitFindsSeparator` | params.py:106 | Split gives more than one piece if and only if the separator occurs in the string. |
| `Text.SplitPiecesAreFree` | params.py:106 | No piece of a split contains the separator. |
| `Text.SplitHeadIsPrefix` | params.py:106-107 | The first piece of a split (the parameter name) is a prefix of the line. |
| `Params.Trunc` | params.py:34-46 | Python's `int()` on a float truncates toward zero: the result is within one of x, on the zero side. |
| `Params.FirstMissing` | params.py:34-47 | No key is reported missing exactly when all twelve required keys are present; a reported key is really absent, and every key looked up before it (NUM_TX, NUM_RX, START_FREQ, … in source order) is present. |
| `Params.ReadChirpConfig` | params.py:37-49 | Slope is in Hz/s (×10¹²), start frequency in Hz (×10⁹), sample rate in Hz (×10³), idle and ramp end time in s (×10⁻⁶). The transmitter, receiver, sample and chirp-loop counts are the truncated NUM_TX, NUM_RX, ADC_SAMPLES and CHIRP_LOOPS; ADC start time is in s (×10⁻⁶); FS, RX_GAIN and the periodicity are taken as they are. |
| `Params.ResolvableExactly` | params.py:37-77 | Resolution succeeds if and only if, on the raw dictionary: start frequency, sample rate, slope and ramp end time are nonzero; the integer parts of CHIRP_LOOPS and NUM_TX are nonzero; and idle + ramp time is nonzero. |
| `Params.DeriveTiming` | params.py:50-54 | Wavelength · fc = c, chirp time = idle + ramp time, chirp separation = chirp time · TX, chirps per frame = loops · TX, min periodicity = separation · loops · 1000. |
| `Params.DeriveRange` | params.py:59-68 | NUM_RANGE_BINS = ADC_SAMPLES, k_temp = 48 · k · 2²⁶ · 10³ / (3.6·10⁹ · 900), Ts · fs = ADC_SAMPLES, B1 = k_temp · Ts, R_BIN · 2B = c, R_MAX = R_BIN · bins, R_MAX_UNAMBIGUOUS = 0.9 · R_MAX. |
| `Params.DeriveDoppler` | params.py:73-77 | NUM_DOPPLER_BINS = CHIRP_LOOPS, DOPPLER_BIN · 2 · loops · Tsep = λ, DOPPLER_MAX · 4 · Tsep = λ. |
| `Params.Resolve` | params.py:30-87 | Success if and only if the dictionary is resolvable. A missing key fails with MissingKey for the first key looked up that is absent; with every key present, a failure is a division by zero. The result keeps the mode and dictionary and satisfies every physical relation, with 64 azimuth and 32 elevation bins. |
| `Params.Derive` | params.py:48-77 | With every key read, success exactly when none of the divisors is zero, and any failure is a division by zero; the result carries the given chirp configuration and satisfies every physical relation. |
| `Params.ModeIsRecordedOnly` | params.py:89-97 | Resolving in record or in playback mode agree on success and on the error, and their records differ only in the mode. |
| `Params.SetPlaybackMode` | params.py:94-97 | Playback mode resolves the given dictionary as it is; success exactly when it is resolvable. A missing key fails with MissingKey for the first key looked up that is absent; with every key present, a failure is a division by zero. |
| `Params.SetRecordMode` | params.py:89-92 | Record mode succeeds exactly when the file parses and the parsed dictionary resolves. On success it records that dictionary and the chirp configuration read from it, and the transmitter count is the truncated sum of the three enable flags. A parse failure is passed on unchanged; a parsed dictionary fails with MissingKey for its first absent key, or else with a division by zero. |
| `Params.RecordIsPlaybackOfParsedFile` | params.py:89-97 | Record mode equals playback of the parsed dictionary: same success, same error, same record apart from the mode. |
| `Params.DopplerMaxIsHalfSpan` | params.py:75-77 | DOPPLER_MAX = DOPPLER_BIN · CHIRP_LOOPS / 2. |
| `Params.UnambiguousRangeBelowMax` | params.py:66-68 | R_MAX_UNAMBIGUOUS < R_MAX if and only if R_MAX > 0, which a positive bandwidth and sample count imply. |
| `Axes.Linspace` | fourier.py:101-103 | numpy's `linspace`: fails exactly for a negative count, and then with NegativeCount; has num points; starts at start; ends at stop when num ≥ 2; is evenly spaced. |
| `Axes.LinspaceSteps` | fourier.py:47 | Consecutive points differ by (stop − start)/(num − 1). |
| `Axes.LinspaceIncreasing` | fourier.py:101-103 | For start < stop the axis is strictly increasing. |
| `Axes.LinspaceSymmetric` | fourier.py:102-103 | An axis from −a to a is symmetric: point i is minus point num−1−i. |
| `Axes.AngleGridFormula` | fourier.py:72 | Angle grid point i is −1 + 2i/N. |
| `Axes.AngleGridValues` | fourier.py:72-76 | The angle grid starts at −1, ends at 1 − 2/N, stays within [−1, 1 − 2/N], and steps by 2/N. |
| `Fourier.DeviceNamed` | fourier.py:33-45 | Exactly "IWR6843ISK-ODS" and "IWR1843" name a device with a layout. |
| `Fourier.LayoutsArePlacements` | fourier.py:33-45 | The ODS plane is 4 × 4 and the IWR1843 plane is 2 × 8. Each places each of the 12 virtual antennas in exactly one cell and nothing else. |
| `Fourier.PlacedOnce` | fourier.py:34-45 | In a placement, two cells holding the same antenna are the same cell. |
| `Fourier.RangeSpectrum` | fourier.py:25-27 | Every antenna's range spectrum keeps its length; its first 8 bins are zero and the rest are the FFT. |
| `Fourier.RangeFft` | fourier.py:17-49 | Fails exactly on: no samples; a known device given fewer than 12 antenna rows; a negative bin count; an unknown device. The errors come in that order: each is pinned to its kind once the earlier ones are ruled out, so an unknown device with a negative bin count fails with NegativeCount. The cube is built from the device layout and the cleared spectrum, and the range axis runs from 0 to R_MAX. |
| `Fourier.CubePlacement` | fourier.py:33-45 | In a cube built from a placement, antenna v's spectrum sits at its position and blank cells are zero. |
| `Fourier.RangeCubePlacement` | fourier.py:17-49 | In the range cube, antenna v's cleared spectrum sits at the device's position for v, and every blank cell is zero. |
| `Fourier.RangeAxisSpacing` | fourier.py:47 | The range axis spacing times N − 1 equals R_BIN · N: the axis is not spaced by R_BIN. |
| `Fourier.ShiftIndex` | fourier.py:95 | `fftshift` output index i reads input index (i + n − n/2) mod n, within range. |
| `Fourier.ShiftIndexFacts` | fourier.py:63-64 | The shift is injective and moves index 0 to the middle; on even axes it is its own inverse. |
| `Fourier.MeanBounds` | fourier.py:93 | A mean of non-negative values is non-negative; the mean of equal values is that value, whatever its sign. |
| `Fourier.AveragedDoppler` | fourier.py:88-93 | The averaged map is (4·loops) × (4·samples); each entry is the mean over antennas of the padded 2-D FFT magnitude. |
| `Fourier.DopplerFft` | fourier.py:81-105 | Fails exactly on no antennas, no loops or no samples. The map is 4L × 4S. The first 32 range columns are zero; every other entry is the averaged magnitude at the shifted Doppler row. The axes are linspace(−DOPPLER_MAX, DOPPLER_MAX) and linspace(0, R_MAX). |
| `Fourier.DopplerShiftUndone` | fourier.py:95 | Doppler row k of the unshifted average appears at row ShiftIndex(k), so zero velocity lands on the middle row. |
| `Fourier.DopplerAxis` | fourier.py:101-103 | The Doppler axis is symmetric about zero, spans ±DOPPLER_MAX, and rises when DOPPLER_MAX > 0. |
| `Fourier.DopplerMapNonNegative` | fourier.py:93-97 | With a non-negative magnitude every entry of the range-Doppler map is non-negative. |
| `Fourier.ShiftedAngleSpectrum` | fourier.py:62-64 | The angle spectrum is 32 × 64; entry (e, a) is the transform's entry at the shifted indices. |
| `Fourier.AngleFft` | fourier.py:52-78 | The azimuth profile is 64 × bins, the mean over elevation. The elevation profile is 32 × bins, the mean over azimuth. The axes are the arcsine of the angle grids. |
| `Fourier.AngleProfilesNonNegative` | fourier.py:67-68 | Both angle profiles are non-negative. |
| `Fourier.AngleAxesAligned` | fourier.py:72-76 | The arcsine is taken only inside [−1, 1). The middle bin is both the zero angle and the zero spatial frequency of the shifted transform. |
| `Fourier.OuterProduct` | fourier.py:113-123 | Row i, column j of the table is f[i] · t[j]. |
| `Fourier.StackScaledRowsAt` | fourier.py:120-123 | Stacked row i·|m| + k is row k of t scaled by f[i]. |
| `Fourier.StackScaledFlatAt` | fourier.py:120-123 | Stacked entry i·|t| + k is f[i] · t[k]. |
| `Fourier.MatlabMultip` | fourier.py:108-127 | Fails exactly when t is not one-dimensional by numpy's size test, or f is empty. A single f gives f[0]·t unstacked; otherwise the result is the stacked product table. |
| `Fourier.MatlabMultipAcceptsColumns` | fourier.py:119 | A 2-D t passes the size test if and only if it is a single column or has no rows. |
| `Fourier.MatlabMultipExample` | fourier.py:113-116 | The documented example holds: f = [2, 4] against t = [1, 2, 3, 4, 5] gives rows [2, 4, 6, 8, 10] and [4, 8, 12, 16, 20]. |
| `Matrices.DotConjSwap` | capon.py:142 | conj(u · conj v) = v · conj u. |
| `Matrices.DotConjSelf` | capon.py:142 | u · conj u is real and non-negative. |
| `Matrices.ExchangeInvolution` | capon.py:162-163 | The exchange matrix is its own inverse. |
| `Capon.Gram` | capon.py:141-143 | Entry (i, j) is row i against conjugated row j, divided by the sample count. |
| `Capon.GramHermitian` | capon.py:141-143 | The covariance is Hermitian with a real, non-negative diagonal. |
| `Capon.CovMatrix` | capon.py:124-145 | Fails for rank 3 or more, and for rank 1. A matrix with more rows than columns is transposed first. The result is the antenna-by-antenna average of products, Hermitian, with a real non-negative diagonal. |
| `Capon.FbAverage` | capon.py:166 | Entry (i, j) is half of R[i][j] plus the conjugate of the centre-mirrored entry. |
| `Capon.FlipBoth` | capon.py:162-166 | J · conj(R) · J is conj(R) reversed on both axes. |
| `Capon.ForwardBackwardAvg` | capon.py:148-168 | Fails exactly for a non-square input; otherwise equals the entrywise forward-backward average. |
| `Capon.FbCentroHermitian` | capon.py:166 | The average is centro-Hermitian. |
| `Capon.FbHermitian` | capon.py:166 | A Hermitian input gives a Hermitian average. |
| `Capon.FbPersymmetric` | capon.py:166 | A Hermitian input gives a persymmetric average. |
| `Capon.FbIdempotent` | capon.py:148-168 | Averaging twice is the same as averaging once. |
| `Capon.AveragedCovariance` | capon.py:47-48 | The matrix Capon inverts is Hermitian, centro-Hermitian and persymmetric. Its size is the smaller of antennas and chirps. |
| `Capon.Denominators` | capon.py:51-52 | Spectrum entry t is 1 / (aₜᴴ R⁻¹ aₜ) for steering vector aₜ. |
| `Capon.Weights` | capon.py:53 | Weight i sums antenna i of R⁻¹aₜ times the spectrum over all angles t. |
| `Capon.AoaCapon` | capon.py:14-58 | The errors, in order: steering vectors that do not match the antenna count; a singular averaged covariance; a transposed covariance. Otherwise the spectrum is 1/(aᴴR⁻¹a) per angle, or its magnitude, and the weights are R⁻¹Aᵀ·spectrum. |
| `Capon.CaponMagnitudeOption` | capon.py:55-58 | Asking for magnitudes changes neither success nor weights; the magnitude spectrum is the magnitude of the complex one. |

## Left out

- File opening and reading are left out. The file is given as its lines, and Python's `float()` is the `parseNumber` parameter.
- The `Params` singleton, `__init__` and `printSummary` are left out: console output and object identity carry no logic.
- A `parse_config` that fails after assigning some attributes is left out. Such a partial update of the singleton is not observable in an immutable model, which returns an error instead.
- The numerical kernels are parameters and are not computed:
  - FFT and 2-D FFT;
  - `abs`, `arcsin` in degrees, `inv` and `reciprocal`.
- Floating-point rounding is left out: all arithmetic is exact on reals.
- Fourier.DopplerFft: an input with zero antennas fails with `EmptyAverage`. numpy instead returns a map of NaN with a warning, and NaN has no real counterpart.
- Fourier.AngleFft: takes the radar cube `cube[row][column][range bin]`. This is how `use_example.py` calls it. The 2-D range spectrum that its docstring names is not modelled.
- Fourier.MatlabMultip: a zero-dimensional t is not modelled; numpy raises IndexError at `t.shape[0]` (fourier.py:119).
- Fourier.MatlabMultip: f is taken to be one-dimensional. A multi-dimensional f would stack rows of a higher rank.
- Capon.CovMatrix: 0-d arrays are left out (rank 1 covers the missing-axis error).
- Capon.AoaCapon: takes x and the steering vectors as 2-D matrices. 1-D inputs, which numpy rejects with an index error, are not modelled.
- `warnings.warn` in `cov_matrix` is left out: it is a side effect only.
- `musicPS` and `steervec` are outside the modelled core.
- `heatmaps.py`, the plotting, live-preview, recording and reading scripts are outside the modelled core.
- The commented-out peak finders and plotters are not code.

=== FILE: axes.dfy ===
/** Bin axes: numpy's `linspace` and the pre-arcsine angle grid. */
module Axes {
  import opened Errors

  /** The spacing of a linspace of num >= 2 points. */
  function Step(start: real, stop: real, num: int): real
    requires num >= 2
  {
    (stop - start) / (num - 1) as real
  }

  /** numpy's `linspace(start, stop, num)`: num evenly spaced values with both ends included. */
  function Linspace(start: real, stop: real, num: int): (r: Result<seq<real>>)
    ensures r.Err? <==> num < 0
    ensures r.Err? ==> r.error == NegativeCount
    ensures r.Ok? ==> |r.value| == num
    ensures r.Ok? && num >= 1 ==> r.value[0] == start
    ensures r.Ok? && num >= 2 ==> r.value[num - 1] == stop
    ensures r.Ok? && num >= 2 ==> forall i :: 0 <= i < num ==> r.value[i] == start + i as real * Step(start, stop, num)
  {
    if num < 0 then Err(NegativeCount)
    else if num < 2 then Ok(seq(num, i => start))
    else
      DivMulCancel(stop - start, (num - 1) as real);
      Ok(seq(num, i => start + i as real * Step(start, stop, num)))
  }

  lemma DivMulCancel(x: real, d: real)
    requires d != 0.0
    ensures d * (x / d) == x
  {
  }

  lemma MulPositive(a: real, b: real)
    requires a > 0.0 && b > 0.0
    ensures a * b > 0.0
  {
  }

  lemma DivPositive(x: real, d: real)
    requires x > 0.0 && d > 0.0
    ensures x / d > 0.0
  {
  }

  lemma MulDiff(i: int, j: int, s: real)
    ensures j as real * s - i as real * s == (j - i) as real * s
  {
  }

  /** Consecutive points of a linspace are (stop - start) / (num - 1) apart. */
  lemma LinspaceSteps(start: real, stop: real, num: int)
    requires num >= 2
    ensures forall i :: 0 <= i < num - 1 ==>
      Linspace(start, stop, num).value[i + 1] - Linspace(start, stop, num).value[i] == Step(start, stop, num)
  {
    var xs := Linspace(start, stop, num).value;
    var step := Step(start, stop, num);
    forall i | 0 <= i < num - 1
      ensures xs[i + 1] - xs[i] == step
    {
      Gap(start, step, i, i + 1, xs[i], xs[i + 1]);
    }
  }

  /** ...so the axis rises strictly when stop > start. */
  lemma LinspaceIncreasing(start: real, stop: real, num: int)
    requires num >= 2 && start < stop
    ensures forall i, j :: 0 <= i < j < num ==>
      Linspace(start, stop, num).value[i] < Linspace(start, stop, num).value[j]
  {
    var xs := Linspace(start, stop, num).value;
    var step := Step(start, stop, num);
    DivPositive(stop - start, (num - 1) as real);
    forall i, j | 0 <= i < j < num
      ensures xs[i] < xs[j]
    {
      Gap(start, step, i, j, xs[i], xs[j]);
      MulPositive((j - i) as real, step);
    }
  }

  /** Two points of an arithmetic progression differ by the step times their distance. */
  lemma Gap(start: real, step: real, i: int, j: int, xi: real, xj: real)
    requires xi == start + i as real * step && xj == start + j as real * step
    ensures xj - xi == (j - i) as real * step
  {
    MulDiff(i, j, step);
  }

  /** A linspace of two or more points from -a to a is symmetric about zero:
      point i mirrors point num-1-i. (A single point is just -a.) */
  lemma LinspaceSymmetric(a: real, num: int)
    requires num >= 2
    ensures forall i {:trigger Linspace(-a, a, num).value[i]} :: 0 <= i < num ==>
      Linspace(-a, a, num).value[i] == -Linspace(-a, a, num).value[num - 1 - i]
  {
    var xs := Linspace(-a, a, num).value;
    var step := Step(-a, a, num);
    DivMulCancel(a - -a, (num - 1) as real);
    forall i {:trigger xs[i]} | 0 <= i < num
      ensures xs[i] == -xs[num - 1 - i]
    {
      Gap(-a, step, num - 1 - i, num - 1, xs[num - 1 - i], xs[num - 1]);
      Gap(-a, step, 0, i, xs[0], xs[i]);
    }
  }

  /** The angle grid before the arcsine: `linspace(-n/2, n/2 - 1, n) * 2/n`. */
  function AngleGrid(n: nat): (g: seq<real>)
    ensures |g| == n
  {
    var half := n as real / 2.0;
    var base := Linspace(-half, half - 1.0, n).value;
    seq(n, i requires 0 <= i < n => base[i] * 2.0 / n as real)
  }

  /** Entry i of the angle grid is -1 + 2i/n. */
  lemma AngleGridFormula(n: nat)
    ensures forall i :: 0 <= i < n ==> AngleGrid(n)[i] == -1.0 + 2.0 * i as real / n as real
  {
    forall i | 0 <= i < n
      ensures AngleGrid(n)[i] == -1.0 + 2.0 * i as real / n as real
    {
      GridEntry(n, i);
    }
  }

  lemma GridEntry(n: nat, i: nat)
    requires i < n
    ensures AngleGrid(n)[i] == -1.0 + 2.0 * i as real / n as real
  {
    var half := n as real / 2.0;
    var base := Linspace(-half, half - 1.0, n).value;
    if n >= 2 {
      UnitStep(n);
      assert base[i] == -half + i as real * Step(-half, half - 1.0, n);
    }
    GridPoint(n, i, base[i]);
  }

  /** The grid's linspace moves by exactly one per point. */
  lemma UnitStep(n: nat)
    requires n >= 2
    ensures Step(-(n as real / 2.0), n as real / 2.0 - 1.0, n) == 1.0
  {
    var half := n as real / 2.0;
    assert half - 1.0 - -half == (n - 1) as real;
  }

  lemma GridPoint(n: nat, i: nat, b: real)
    requires i < n && b == -(n as real / 2.0) + i as real
    ensures b * 2.0 / n as real == -1.0 + 2.0 * i as real / n as real
  {
    var nr := n as real;
    assert b * 2.0 == -nr + 2.0 * i as real;
    assert (-nr + 2.0 * i as real) / nr == -nr / nr + 2.0 * i as real / nr;
    assert -nr / nr == -1.0;
  }

  /** The grid starts at -1 and rises by exactly 2/n per bin, so it lies in
      [-1, 1 - 2/n]: within the arcsine's domain, and not symmetric about 0. */
  lemma AngleGridValues(n: nat)
    requires n >= 1
    ensures AngleGrid(n)[0] == -1.0
    ensures AngleGrid(n)[n - 1] == 1.0 - 2.0 / n as real
    ensures forall i :: 0 <= i < n ==> -1.0 <= AngleGrid(n)[i] <= 1.0 - 2.0 / n as real
    ensures forall i :: 0 <= i < n - 1 ==> AngleGrid(n)[i + 1] - AngleGrid(n)[i] == 2.0 / n as real
  {
    var g := AngleGrid(n);
    var nr := n as real;
    forall i | 0 <= i < n
      ensures -1.0 <= g[i] <= 1.0 - 2.0 / nr
    {
      GridEntry(n, i);
      GridLower(n, i);
      GridUpper(n, i);
    }
    forall i | 0 <= i < n - 1
      ensures g[i + 1] - g[i] == 2.0 / nr
    {
      GridEntry(n, i);
      GridEntry(n, i + 1);
      GridGap(n, i);
    }
    GridEntry(n, 0);
    GridEntry(n, n - 1);
    GridLast(n);
  }

  lemma GridGap(n: nat, i: nat)
    requires n >= 1
    ensures 2.0 * (i + 1) as real / n as real == 2.0 * i as real / n as real + 2.0 / n as real
  {
  }

  lemma GridLower(n: nat, i: nat)
    requires i < n
    ensures 0.0 <= 2.0 * i as real / n as real
  {
  }

  /** Below the last bin the grid stays 2/n under 1. */
  lemma GridUpper(n: nat, i: nat)
    requires i < n
    ensures 2.0 * i as real / n as real <= 2.0 - 2.0 / n as real
  {
    var nr := n as real;
    DivMono(2.0 * i as real, 2.0 * nr - 2.0, nr);
    DivSplit(2.0 * nr, 2.0, nr);
  }

  lemma GridLast(n: nat)
    requires n >= 1
    ensures 2.0 * (n - 1) as real / n as real == 2.0 - 2.0 / n as real
  {
  }

  lemma DivMono(a: real, b: real, d: real)
    requires d > 0.0 && a <= b
    ensures a / d <= b / d
  {
  }

  lemma DivSplit(a: real, b: real, d: real)
    requires d != 0.0
    ensures (a - b) / d == a / d - b / d
  {
  }
}

=== FILE: capon.dfy ===
/** Capon (minimum-variance) beamforming: the spatial covariance of a range-FFT
    slice, its forward-backward average, and the Capon angle spectrum and weights.
    Matrix inversion, reciprocal and magnitude are parameters. */
module Capon {
  import opened Errors
  import opened ComplexNumbers
  import opened Matrices
  import opened NdArrays

  // ----------------------------------------------------------- covariance

  /** x · conj(x)ᵀ / samples: entry (i, j) is row i against conjugated row j, averaged. */
  function Gram(x: Matrix, samples: nat): (r: Matrix)
    requires IsMatrix(x, |x|, samples)
    requires samples > 0 || |x| == 0
    ensures IsMatrix(r, |x|, |x|)
    ensures forall i, j :: 0 <= i < |x| && 0 <= j < |x| ==>
      r[i][j] == Scale(1.0 / samples as real, Dot(x[i], ConjVec(x[j])))
  {
    seq(|x|, i requires 0 <= i < |x| =>
      seq(|x|, j requires 0 <= j < |x| => Scale(1.0 / samples as real, Dot(x[i], ConjVec(x[j])))))
  }

  /** A Gram matrix is Hermitian with a real, non-negative diagonal. */
  lemma GramHermitian(x: Matrix, samples: nat)
    requires IsMatrix(x, |x|, samples)
    requires samples > 0 || |x| == 0
    ensures Hermitian(Gram(x, samples))
    ensures forall i :: 0 <= i < |x| ==> Gram(x, samples)[i][i].im == 0.0 && Gram(x, samples)[i][i].re >= 0.0
  {
    var r := Gram(x, samples);
    forall i, j | 0 <= i < |x| && 0 <= j < |x|
      ensures r[i][j] == Conj(r[j][i])
    {
      var c := if samples == 0 then 0.0 else 1.0 / samples as real;
      DotConjSwap(x[j], x[i]);
      ScaleConj(c, Dot(x[j], ConjVec(x[i])));
    }
    forall i | 0 <= i < |x|
      ensures r[i][i].im == 0.0 && r[i][i].re >= 0.0
    {
      DotConjSelf(x[i]);
      ScaleConj(1.0 / samples as real, Dot(x[i], ConjVec(x[i])));
    }
  }

  /** `cov_matrix(x)`: the spatial covariance of a 2-D slice whose rows are the
      virtual antennas. An input with more rows than columns is taken to be the
      wrong way round and transposed first; arrays of rank other than 2 fail. */
  function CovMatrix(x: NdArray): (r: Result<Matrix>)
    requires WellFormed(x)
    ensures r.Ok? <==> x.Mat?
    ensures x.Tensor? ==> r == Err(TooManyDimensions)
    ensures x.Vec? ==> r == Err(MissingAxis)
    ensures x.Mat? && |x.rows| <= x.cols ==>
      && IsMatrix(r.value, |x.rows|, |x.rows|)
      && forall i, j :: 0 <= i < |x.rows| && 0 <= j < |x.rows| ==>
           r.value[i][j] == Scale(1.0 / x.cols as real, Dot(x.rows[i], ConjVec(x.rows[j])))
    ensures x.Mat? && |x.rows| > x.cols ==>
      && IsMatrix(r.value, x.cols, x.cols)
      && forall i, j :: 0 <= i < x.cols && 0 <= j < x.cols ==>
           r.value[i][j] == Scale(1.0 / |x.rows| as real, Dot(Column(x.rows, i), ConjVec(Column(x.rows, j))))
    ensures r.Ok? ==> Hermitian(r.value)
    ensures r.Ok? ==> forall i :: 0 <= i < |r.value| ==> r.value[i][i].im == 0.0 && r.value[i][i].re >= 0.0
  {
    match x
    case Tensor(_, _) => Err(TooManyDimensions)
    case Vec(_) => Err(MissingAxis)
    case Mat(cols, rows) =>
      if |rows| > cols then
        var xt := Transpose(rows, cols);
        GramHermitian(xt, |rows|);
        Ok(Gram(xt, |rows|))
      else
        GramHermitian(rows, cols);
        Ok(Gram(rows, cols))
  }

  // -------------------------------------------- forward-backward averaging

  /** The forward-backward average of entry (i, j): half of R[i][j] plus the
      conjugate of the entry mirrored through the centre. */
  function FbEntry(m: Matrix, i: nat, j: nat): Complex
    requires IsSquare(m) && i < |m| && j < |m|
  {
    Scale(0.5, Add(m[i][j], Conj(m[|m| - 1 - i][|m| - 1 - j])))
  }

  /** The forward-backward average written entry by entry. */
  function FbAverage(m: Matrix): (r: Matrix)
    requires IsSquare(m)
    ensures IsSquare(r) && |r| == |m|
    ensures forall i, j :: 0 <= i < |m| && 0 <= j < |m| ==> r[i][j] == FbEntry(m, i, j)
  {
    seq(|m|, i requires 0 <= i < |m| => seq(|m|, j requires 0 <= j < |m| => FbEntry(m, i, j)))
  }

  /** `forward_backward_avg(R)`: ½·(R + J·conj(R)·J) with J the exchange matrix,
      which is the entrywise average FbAverage. A non-square input fails its assertion. */
  function ForwardBackwardAvg(m: Matrix, cols: nat): (r: Result<Matrix>)
    requires IsMatrix(m, |m|, cols)
    ensures r.Err? <==> |m| != cols
    ensures r.Err? ==> r.error == NotSquare
    ensures r.Ok? ==> r.value == FbAverage(m)
  {
    if |m| != cols then Err(NotSquare)
    else
      var n := |m|;
      var j := Exchange(n);
      var flipped := MatMul(MatMul(j, ConjMatrix(m), n), j, n);
      FlipBoth(m);
      var r := ScaleMatrix(0.5, AddMatrix(m, flipped, n));
      assert forall i :: 0 <= i < n ==> r[i] == FbAverage(m)[i];
      Ok(r)
  }
  /** J·conj(m)·J is conj(m) with both axes reversed. */
  lemma FlipBoth(m: Matrix)
    requires IsSquare(m)
    ensures var n := |m|;
      forall i, j :: 0 <= i < n && 0 <= j < n ==>
        MatMul(MatMul(Exchange(n), ConjMatrix(m), n), Exchange(n), n)[i][j] == Conj(m[n - 1 - i][n - 1 - j])
  {
    var n := |m|;
    var c := ConjMatrix(m);
    assert IsMatrix(c, n, n);
    var left := MatMul(Exchange(n), c, n);
    ExchangeLeft(c, n);
    ExchangeRight(left, n);
  }

  /** The average is centro-Hermitian. */
  lemma FbCentroHermitian(m: Matrix)
    requires IsSquare(m)
    ensures CentroHermitian(FbAverage(m))
  {
    var r := FbAverage(m);
    var n := |m|;
    forall i, j {:trigger r[i][j]} | 0 <= i < n && 0 <= j < n
      ensures r[i][j] == Conj(r[n - 1 - i][n - 1 - j])
    {
      assert r[n - 1 - i][n - 1 - j] == FbEntry(m, n - 1 - i, n - 1 - j);
    }
  }

  /** A Hermitian input (every covariance) gives a Hermitian output... */
  lemma FbHermitian(m: Matrix)
    requires Hermitian(m)
    ensures Hermitian(FbAverage(m))
  {
    var r := FbAverage(m);
    var n := |m|;
    forall i, j | 0 <= i < n && 0 <= j < n
      ensures r[i][j] == Conj(r[j][i])
    {
      var a, b := m[i][j], m[n - 1 - i][n - 1 - j];
      assert m[j][i] == Conj(a);
      assert m[n - 1 - j][n - 1 - i] == Conj(b);
      assert r[j][i] == Scale(0.5, Add(Conj(a), b));
    }
  }

  /** ...that is also persymmetric. */
  lemma FbPersymmetric(m: Matrix)
    requires Hermitian(m)
    ensures Persymmetric(FbAverage(m))
  {
    var r := FbAverage(m);
    var n := |m|;
    forall i, j {:trigger r[i][j]} | 0 <= i < n && 0 <= j < n
      ensures r[i][j] == r[n - 1 - j][n - 1 - i]
    {
      var a, b := m[i][j], m[n - 1 - i][n - 1 - j];
      assert m[j][i] == Conj(a);
      assert m[n - 1 - j][n - 1 - i] == Conj(b);
      assert r[n - 1 - j][n - 1 - i] == Scale(0.5, Add(Conj(b), Conj(Conj(a))));
    }
  }

  /** Averaging an already averaged matrix changes nothing. */
  lemma FbIdempotent(m: Matrix)
    requires IsSquare(m)
    ensures FbAverage(FbAverage(m)) == FbAverage(m)
  {
    var once := FbAverage(m);
    var twice := FbAverage(once);
    var n := |m|;
    FbCentroHermitian(m);
    forall i | 0 <= i < n
      ensures twice[i] == once[i]
    {
      forall j | 0 <= j < n
        ensures twice[i][j] == once[i][j]
      {
        assert once[i][j] == Conj(once[n - 1 - i][n - 1 - j]);
      }
    }
  }

  // ------------------------------------------------------------ aoa_capon

  /** `np.linalg.inv`: None for a singular matrix, else a matrix of the same shape. */
  ghost predicate InvertsSquare(inv: Matrix -> Option<Matrix>) {
    forall m :: IsSquare(m) && inv(m).Some? ==> IsMatrix(inv(m).value, |m|, |m|)
  }

  /** The angle spectrum as complex values, or as magnitudes when asked for. */
  datatype Spectrum = Raw(values: Vector) | Magnitudes(levels: seq<real>)

  /** The Capon spectrum over the steering angles and the weights per antenna. */
  datatype CaponOutput = CaponOutput(spectrum: Spectrum, weights: Vector)

  /** The covariance `aoa_capon` inverts: the forward-backward averaged covariance of x. */
  function AveragedCovariance(x: Matrix, xCols: nat): (r: Matrix)
    requires IsMatrix(x, |x|, xCols)
    ensures Hermitian(r) && CentroHermitian(r) && Persymmetric(r)
    ensures |r| == (if |x| <= xCols then |x| else xCols)
  {
    var cov := CovMatrix(Mat(xCols, x)).value;
    FbHermitian(cov);
    FbCentroHermitian(cov);
    FbPersymmetric(cov);
    FbAverage(cov)
  }

  /** `aoa_capon(x, steering_vector, magnitude)` for x of antennas x chirps and a
      steering matrix of angles x antennas: the spectrum 1 / (a^H R^-1 a) for each
      steering vector a, and the weights R^-1·Aᵀ·spectrum. Fails when the steering
      vectors do not match the antenna count (before any work), when the averaged
      covariance is singular, and when x had more antennas than chirps (the
      covariance was transposed and no longer matches the steering vectors). */
  function AoaCapon(x: Matrix, xCols: nat, sv: Matrix, svCols: nat, magnitude: bool,
                    inv: Matrix -> Option<Matrix>, recip: Complex -> Complex, abs: Complex -> real): (r: Result<CaponOutput>)
    requires IsMatrix(x, |x|, xCols) && IsMatrix(sv, |sv|, svCols)
    requires InvertsSquare(inv)
    ensures svCols != |x| ==> r == Err(ShapeMismatch)
    ensures svCols == |x| && inv(AveragedCovariance(x, xCols)).None? ==> r == Err(SingularMatrix)
    ensures svCols == |x| && inv(AveragedCovariance(x, xCols)).Some? && |x| > xCols ==> r == Err(ShapeMismatch)
    ensures r.Ok? <==> svCols == |x| && |x| <= xCols && inv(AveragedCovariance(x, xCols)).Some?
    ensures r.Ok? ==>
      var rInv := inv(AveragedCovariance(x, xCols)).value;
      && |r.value.weights| == |x|
      && (r.value.spectrum.Raw? <==> !magnitude)
      && (!magnitude ==>
            && |r.value.spectrum.values| == |sv|
            && forall t :: 0 <= t < |sv| ==>
                 r.value.spectrum.values[t] == recip(Dot(ConjVec(sv[t]), MatVec(rInv, sv[t]))))
      && (magnitude ==>
            && |r.value.spectrum.levels| == |sv|
            && forall t :: 0 <= t < |sv| ==>
                 r.value.spectrum.levels[t] == abs(recip(Dot(ConjVec(sv[t]), MatVec(rInv, sv[t])))))
      && forall i :: 0 <= i < |x| ==>
           r.value.weights[i] == Dot(SteeredRow(rInv, sv, i), Denominators(rInv, sv, svCols, recip))
  {
    if svCols != |x| then Err(ShapeMismatch)
    else
      var fb := AveragedCovariance(x, xCols);
      match inv(fb)
      case None => Err(SingularMatrix)
      case Some(rInv) =>
        if |fb| != |x| then Err(ShapeMismatch)
        else
          var den := Denominators(rInv, sv, svCols, recip);
          var weights := Weights(rInv, sv, svCols, den);
          Ok(CaponOutput(if magnitude then Magnitudes(seq(|den|, t requires 0 <= t < |den| => abs(den[t]))) else Raw(den), weights))
  }

  /** `reciprocal(einsum('ij,ij->i', conj(A), (R^-1·Aᵀ)ᵀ))`: for each steering vector
      a = A[t], the reciprocal of a^H·R^-1·a. */
  function Denominators(rInv: Matrix, sv: Matrix, svCols: nat, recip: Complex -> Complex): (den: Vector)
    requires IsMatrix(sv, |sv|, svCols) && IsMatrix(rInv, svCols, svCols)
    ensures |den| == |sv|
    ensures forall t :: 0 <= t < |sv| ==> den[t] == recip(Dot(ConjVec(sv[t]), MatVec(rInv, sv[t])))
  {
    var first := MatMul(rInv, Transpose(sv, svCols), |sv|);
    forall t | 0 <= t < |sv|
      ensures Column(first, t) == MatVec(rInv, sv[t])
    {
      assert Column(Transpose(sv, svCols), t) == sv[t];
    }
    seq(|sv|, t requires 0 <= t < |sv| => recip(Dot(ConjVec(sv[t]), Column(first, t))))
  }

  /** `matmul(R^-1·Aᵀ, den)`: entry i sums antenna i of R^-1·a times the spectrum over the angles. */
  function Weights(rInv: Matrix, sv: Matrix, svCols: nat, den: Vector): (w: Vector)
    requires IsMatrix(sv, |sv|, svCols) && IsMatrix(rInv, svCols, svCols) && |den| == |sv|
    ensures |w| == svCols
    ensures forall i :: 0 <= i < svCols ==> w[i] == Dot(SteeredRow(rInv, sv, i), den)
  {
    var first := MatMul(rInv, Transpose(sv, svCols), |sv|);
    assert forall i :: 0 <= i < svCols ==> first[i] == SteeredRow(rInv, sv, i) by {
      forall i | 0 <= i < svCols
        ensures first[i] == SteeredRow(rInv, sv, i)
      {
        forall t | 0 <= t < |sv|
          ensures first[i][t] == Dot(rInv[i], sv[t])
        {
          assert Column(Transpose(sv, svCols), t) == sv[t];
        }
      }
    }
    MatVec(first, den)
  }

  /** Row i of R^-1·Aᵀ: antenna i of R^-1·a for every steering vector a. */
  function SteeredRow(rInv: Matrix, sv: Matrix, i: nat): (row: Vector)
    requires i < |rInv| && forall t :: 0 <= t < |sv| ==> |sv[t]| == |rInv[i]|
    ensures |row| == |sv|
    ensures forall t :: 0 <= t < |sv| ==> row[t] == Dot(rInv[i], sv[t])
  {
    seq(|sv|, t requires 0 <= t < |sv| => Dot(rInv[i], sv[t]))
  }

  /** Asking for magnitudes changes neither whether the call succeeds nor the
      weights, and the magnitude spectrum is the magnitude of the complex one. */
  lemma CaponMagnitudeOption(x: Matrix, xCols: nat, sv: Matrix, svCols: nat,
                             inv: Matrix -> Option<Matrix>, recip: Complex -> Complex, abs: Complex -> real)
    requires IsMatrix(x, |x|, xCols) && IsMatrix(sv, |sv|, svCols)
    requires InvertsSquare(inv)
    ensures var raw := AoaCapon(x, xCols, sv, svCols, false, inv, recip, abs);
      var mag := AoaCapon(x, xCols, sv, svCols, true, inv, recip, abs);
      && (raw.Ok? <==> mag.Ok?)
      && (raw.Ok? ==>
            && raw.value.weights == mag.value.weights
            && |mag.value.spectrum.levels| == |raw.value.spectrum.values|
            && forall t :: 0 <= t < |raw.value.spectrum.values| ==>
                 mag.value.spectrum.levels[t] == abs(raw.value.spectrum.values[t]))
  {
  }
}

=== FILE: complex.dfy ===
/** Complex numbers over exact reals: numpy's complex128 without rounding. */
module ComplexNumbers {

  datatype Complex = Complex(re: real, im: real)

  const Zero: Complex := Complex(0.0, 0.0)
  const One: Complex := Complex(1.0, 0.0)

  function Add(a: Complex, b: Complex): Complex {
    Complex(a.re + b.re, a.im + b.im)
  }

  function Mul(a: Complex, b: Complex): Complex {
    Complex(a.re * b.re - a.im * b.im, a.re * b.im + a.im * b.re)
  }

  function Conj(a: Complex): Complex {
    Complex(a.re, -a.im)
  }

  /** Multiplication by a real scalar. */
  function Scale(s: real, a: Complex): Complex {
    Complex(s * a.re, s * a.im)
  }

  lemma MulComm(a: Complex, b: Complex)
    ensures Mul(a, b) == Mul(b, a)
  {
  }

  lemma ConjMul(a: Complex, b: Complex)
    ensures Conj(Mul(a, b)) == Mul(Conj(a), Conj(b))
  {
  }

  lemma MulUnits(a: Complex)
    ensures Mul(One, a) == a && Mul(a, One) == a
    ensures Mul(Zero, a) == Zero && Mul(a, Zero) == Zero
  {
  }

  /** a times its conjugate is |a|^2: real and non-negative. */
  lemma MulConjSelf(a: Complex)
    ensures Mul(a, Conj(a)).im == 0.0
    ensures Mul(a, Conj(a)).re >= 0.0
  {
    assert a.re * a.re >= 0.0;
    assert a.im * a.im >= 0.0;
  }

  /** Scaling by a real commutes with conjugation, and a positive scale keeps a
      real, non-negative number real and non-negative. */
  lemma ScaleConj(s: real, a: Complex)
    ensures Conj(Scale(s, a)) == Scale(s, Conj(a))
    ensures s > 0.0 && a.im == 0.0 && a.re >= 0.0 ==> Scale(s, a).im == 0.0 && Scale(s, a).re >= 0.0
  {
    assert s * -a.im == -(s * a.im);
    if s > 0.0 && a.re >= 0.0 {
      assert s * a.re >= 0.0;
    }
  }
}

=== FILE: config_file.dfy ===
/** Reading the hardware configuration script into a dictionary of numbers
    (`parse_config_file`). The file is given as the successive results of
    `readline()`, each line still carrying its terminator; decimal-to-number
    conversion (`float`) is the parameter `parseNumber`. */
module ConfigFile {
  import opened Errors
  import opened Text

  type Config = map<string, real>

  /** The parser reads exactly this many lines, whatever the file holds. */
  const LinesRead: nat := 39
  const Assign: string := " = "
  const CommentMark: string := " -"

  /** The i-th `readline()`: the file's line, or "" once the file is exhausted. */
  function ReadLine(file: seq<string>, i: nat): string {
    if i < |file| then file[i] else ""
  }

  function ReadLines(file: seq<string>): (lines: seq<string>)
    ensures |lines| == LinesRead
    ensures forall i :: 0 <= i < LinesRead ==> lines[i] == ReadLine(file, i)
  {
    seq(LinesRead, i requires 0 <= i < LinesRead => ReadLine(file, i))
  }

  /** Comment lines (leading '-') and blank lines (leading newline) carry nothing. */
  predicate IsSkipped(line: string) {
    |line| > 0 && (line[0] == '-' || line[0] == '\n')
  }

  /** Keys the parser computes itself; a file line assigning one is ignored. */
  predicate IsComputedKey(key: string) {
    key == "NUM_TX" || key == "END_CHIRP_TX"
  }

  predicate IsPrefix(p: string, s: string) {
    |p| <= |s| && s[..|p|] == p
  }

  datatype LineOutcome = Ignored | Assignment(key: string, value: real)

  /** `elems[1].split(' -')[0]`: the text after the first " = ", up to the next
      " = " and then up to the first " -" (the trailing comment). */
  function ValueText(text: string): string {
    var elems := Split(text, Assign);
    if |elems| < 2 then "" else Split(elems[1], CommentMark)[0]
  }

  /** One line of the loop: skip it, or split `KEY = VALUE - comment` into a key and a number. */
  function ParseLine(line: string, parseNumber: string -> Option<real>): (r: Result<LineOutcome>)
    ensures IsSkipped(line) ==> r == Ok(Ignored)
    ensures r.Ok? && r.value.Assignment? ==>
      && !IsSkipped(line)
      && !IsComputedKey(r.value.key)
      && IsPrefix(r.value.key + Assign, DropLast(line))
      && !Contains(r.value.key, Assign)
      && (forall i :: 0 <= i < |r.value.key| ==> !OccursAt(DropLast(line), Assign, i))
      && parseNumber(ValueText(DropLast(line))) == Some(r.value.value)
    ensures !IsSkipped(line) && !Contains(DropLast(line), Assign) ==>
      r == (if IsComputedKey(DropLast(line)) then Ok(Ignored) else Err(MalformedLine))
    ensures !IsSkipped(line) && Contains(DropLast(line), Assign) ==>
      var key := Split(DropLast(line), Assign)[0];
      && (IsComputedKey(key) ==> r == Ok(Ignored))
      && (!IsComputedKey(key) ==>
            && (r.Ok? <==> parseNumber(ValueText(DropLast(line))).Some?)
            && (r.Ok? ==> r.value.Assignment?)
            && (r.Err? ==> r == Err(BadNumber)))
    ensures r.Err? ==> !IsSkipped(line)
  {
    if IsSkipped(line) then Ok(Ignored)
    else
      var text := DropLast(line);
      var elems := Split(text, Assign);
      SplitJoin(text, Assign);
      SplitFindsSeparator(text, Assign);
      SplitPiecesAreFree(text, Assign);
      SplitHeadIsFirst(text, Assign);
      if IsComputedKey(elems[0]) then Ok(Ignored)
      else if |elems| < 2 then Err(MalformedLine)
      else
        assert text == elems[0] + Assign + Join(elems[1..], Assign);
        match parseNumber(Split(elems[1], CommentMark)[0])
        case None => Err(BadNumber)
        case Some(v) => Ok(Assignment(elems[0], v))
  }

  /** The line assigns a value to key. */
  predicate Assigns(line: string, parseNumber: string -> Option<real>, key: string) {
    var r := ParseLine(line, parseNumber);
    r.Ok? && r.value.Assignment? && r.value.key == key
  }

  /** The loop over the read lines: `d.update` for every assignment, in order. */
  function ApplyLines(lines: seq<string>, d: Config, parseNumber: string -> Option<real>): Result<Config>
    decreases |lines|
  {
    if |lines| == 0 then Ok(d)
    else
      var outcome :- ParseLine(lines[0], parseNumber);
      var next := if outcome.Assignment? then d[outcome.key := outcome.value] else d;
      ApplyLines(lines[1..], next, parseNumber)
  }

  /** The loop fails exactly when one of its lines does. */
  lemma {:induction false} ApplyFailsExactly(lines: seq<string>, d: Config, parseNumber: string -> Option<real>)
    ensures ApplyLines(lines, d, parseNumber).Err? <==>
      exists j :: 0 <= j < |lines| && ParseLine(lines[j], parseNumber).Err?
    decreases |lines|
  {
    if |lines| > 0 {
      var r := ParseLine(lines[0], parseNumber);
      if r.Ok? {
        var next := if r.value.Assignment? then d[r.value.key := r.value.value] else d;
        ApplyFailsExactly(lines[1..], next, parseNumber);
        if exists j :: 0 <= j < |lines| && ParseLine(lines[j], parseNumber).Err? {
          var j :| 0 <= j < |lines| && ParseLine(lines[j], parseNumber).Err?;
          assert lines[1..][j - 1] == lines[j];
        }
        if exists j :: 0 <= j < |lines| - 1 && ParseLine(lines[1..][j], parseNumber).Err? {
          var j :| 0 <= j < |lines| - 1 && ParseLine(lines[1..][j], parseNumber).Err?;
          assert lines[j + 1] == lines[1..][j];
        }
      }
    }
  }

  /** A later line with the same key overwrites an earlier one: the dictionary
      holds the value of the last line that assigns the key. */
  lemma {:induction false} LastAssignmentWins(lines: seq<string>, d: Config, parseNumber: string -> Option<real>,
                                              key: string, j: nat, v: real)
    requires ApplyLines(lines, d, parseNumber).Ok?
    requires j < |lines| && ParseLine(lines[j], parseNumber) == Ok(Assignment(key, v))
    requires forall k :: j < k < |lines| ==> !Assigns(lines[k], parseNumber, key)
    ensures key in ApplyLines(lines, d, parseNumber).value
    ensures ApplyLines(lines, d, parseNumber).value[key] == v
    decreases |lines|
  {
    var r := ParseLine(lines[0], parseNumber);
    var next := if r.value.Assignment? then d[r.value.key := r.value.value] else d;
    assert ApplyLines(lines, d, parseNumber) == ApplyLines(lines[1..], next, parseNumber);
    assert forall k :: 0 <= k < |lines| - 1 ==> lines[1..][k] == lines[k + 1];
    if j == 0 {
      assert next == d[key := v];
      KeptWhenUnassigned(lines[1..], next, parseNumber, key);
    } else {
      LastAssignmentWins(lines[1..], next, parseNumber, key, j - 1, v);
    }
  }

  /** A key no line assigns keeps whatever the dictionary held before. */
  lemma {:induction false} KeptWhenUnassigned(lines: seq<string>, d: Config, parseNumber: string -> Option<real>, key: string)
    requires ApplyLines(lines, d, parseNumber).Ok?
    requires forall k :: 0 <= k < |lines| ==> !Assigns(lines[k], parseNumber, key)
    ensures key in ApplyLines(lines, d, parseNumber).value <==> key in d
    ensures key in d ==> ApplyLines(lines, d, parseNumber).value[key] == d[key]
    decreases |lines|
  {
    if |lines| > 0 {
      var r := ParseLine(lines[0], parseNumber);
      var next := if r.value.Assignment? then d[r.value.key := r.value.value] else d;
      assert !Assigns(lines[0], parseNumber, key);
      assert forall k :: 0 <= k < |lines| - 1 ==> lines[1..][k] == lines[k + 1];
      KeptWhenUnassigned(lines[1..], next, parseNumber, key);
    }
  }

  /** The first of keys that d lacks, scanning in order: the key whose lookup
      raises KeyError first when the keys are read one after another. */
  function FirstAbsent(keys: seq<string>, d: Config): (r: Option<string>)
    ensures r.None? <==> forall i :: 0 <= i < |keys| ==> keys[i] in d
    ensures r.Some? ==> exists k :: && 0 <= k < |keys| && keys[k] == r.value && keys[k] !in d
                                    && forall j :: 0 <= j < k ==> keys[j] in d
    decreases |keys|
  {
    if |keys| == 0 then None
    else if keys[0] !in d then Some(keys[0])
    else
      var rest := FirstAbsent(keys[1..], d);
      assert forall i :: 0 <= i < |keys| - 1 ==> keys[1..][i] == keys[i + 1];
      if rest.Some? then
        var k :| && 0 <= k < |keys| - 1 && keys[1..][k] == rest.value && keys[1..][k] !in d
                 && forall j :: 0 <= j < k ==> keys[1..][j] in d;
        assert keys[k + 1] == rest.value && forall j :: 0 <= j < k + 1 ==> keys[j] in d by {
          forall j | 0 <= j < k + 1 ensures keys[j] in d {
            if j > 0 { assert keys[j] == keys[1..][j - 1]; }
          }
        }
        rest
      else
        assert forall i :: 0 <= i < |keys| ==> keys[i] in d by {
          forall i | 0 <= i < |keys| ensures keys[i] in d {
            if i > 0 { assert keys[i] == keys[1..][i - 1]; }
          }
        }
        rest
  }

  /** The transmitter enable flags, in the order `parse_config_file` adds them. */
  const TxFlags: seq<string> := ["TX0_EN", "TX1_EN", "TX2_EN"]

  /** `parse_config_file`: read 39 lines, then add the computed transmitter count
      NUM_TX = TX0_EN + TX1_EN + TX2_EN and END_CHIRP_TX = NUM_TX - 1. */
  function ParseConfigFile(file: seq<string>, parseNumber: string -> Option<real>): (r: Result<Config>)
    ensures r.Ok? ==>
      && (forall key :: key in ["TX0_EN", "TX1_EN", "TX2_EN", "NUM_TX", "END_CHIRP_TX"] ==> key in r.value)
      && r.value["NUM_TX"] == r.value["TX0_EN"] + r.value["TX1_EN"] + r.value["TX2_EN"]
      && r.value["END_CHIRP_TX"] == r.value["NUM_TX"] - 1.0
    ensures r.Ok? <==>
      && ApplyLines(ReadLines(file), map[], parseNumber).Ok?
      && (forall key :: key in ["TX0_EN", "TX1_EN", "TX2_EN"] ==> key in ApplyLines(ReadLines(file), map[], parseNumber).value)
    ensures ApplyLines(ReadLines(file), map[], parseNumber).Err? ==>
      r == Err(ApplyLines(ReadLines(file), map[], parseNumber).error)
    ensures ApplyLines(ReadLines(file), map[], parseNumber).Ok? ==>
      var missing := FirstAbsent(TxFlags, ApplyLines(ReadLines(file), map[], parseNumber).value);
      missing.Some? ==> r == Err(MissingKey(missing.value))
  {
    var d :- ApplyLines(ReadLines(file), map[], parseNumber);
    var missing := FirstAbsent(TxFlags, d);
    if missing.Some? then Err(MissingKey(missing.value))
    else
      assert TxFlags[0] in d && TxFlags[1] in d && TxFlags[2] in d;
      var numTx := d["TX0_EN"] + d["TX1_EN"] + d["TX2_EN"];
      Ok(d["NUM_TX" := numTx]["END_CHIRP_TX" := numTx - 1.0])
  }

  /** Every key of the result other than the two computed ones holds the value
      of the last of the 39 read lines that assigns it. */
  lemma ParsedValueIsLastAssignment(file: seq<string>, parseNumber: string -> Option<real>,
                                    key: string, j: nat, v: real)
    requires ParseConfigFile(file, parseNumber).Ok?
    requires j < LinesRead && ParseLine(ReadLine(file, j), parseNumber) == Ok(Assignment(key, v))
    requires forall k :: j < k < LinesRead ==> !Assigns(ReadLine(file, k), parseNumber, key)
    ensures key in ParseConfigFile(file, parseNumber).value
    ensures ParseConfigFile(file, parseNumber).value[key] == v
  {
    LastAssignmentWins(ReadLines(file), map[], parseNumber, key, j, v);
  }

  /** A key assigned by no read line, and not computed, is absent from the result. */
  lemma UnassignedKeyIsAbsent(file: seq<string>, parseNumber: string -> Option<real>, key: string)
    requires ParseConfigFile(file, parseNumber).Ok?
    requires !IsComputedKey(key)
    requires forall k :: 0 <= k < LinesRead ==> !Assigns(ReadLine(file, k), parseNumber, key)
    ensures key !in ParseConfigFile(file, parseNumber).value
  {
    KeptWhenUnassigned(ReadLines(file), map[], parseNumber, key);
  }

  /** Past the end of the file `readline()` returns "", which is neither a comment
      nor a blank line and has no " = ": a file shorter than 39 lines fails. */
  lemma ShortFileFails(file: seq<string>, parseNumber: string -> Option<real>)
    requires |file| < LinesRead
    ensures ParseConfigFile(file, parseNumber) == Err(MalformedLine) ||
            ParseConfigFile(file, parseNumber) == Err(BadNumber)
  {
    var lines := ReadLines(file);
    assert lines[|file|] == "";
    assert !Contains("", Assign);
    assert ParseLine(lines[|file|], parseNumber) == Err(MalformedLine);
    ApplyFailsExactly(lines, map[], parseNumber);
    ApplyErrorIsLineError(lines, map[], parseNumber);
  }

  /** The loop's error is the error of its first failing line: a malformed line or a bad number. */
  lemma {:induction false} ApplyErrorIsLineError(lines: seq<string>, d: Config, parseNumber: string -> Option<real>)
    ensures ApplyLines(lines, d, parseNumber).Err? ==>
      ApplyLines(lines, d, parseNumber) == Err(MalformedLine) || ApplyLines(lines, d, parseNumber) == Err(BadNumber)
    ensures ApplyLines(lines, d, parseNumber).Err? ==>
      exists k :: && 0 <= k < |lines|
                  && ParseLine(lines[k], parseNumber).Err?
                  && ApplyLines(lines, d, parseNumber) == Err(ParseLine(lines[k], parseNumber).error)
                  && forall j :: 0 <= j < k ==> ParseLine(lines[j], parseNumber).Ok?
    decreases |lines|
  {
    if |lines| > 0 {
      var r := ParseLine(lines[0], parseNumber);
      if r.Err? {
        assert ApplyLines(lines, d, parseNumber) == Err(r.error);
      } else {
        var next := if r.value.Assignment? then d[r.value.key := r.value.value] else d;
        assert ApplyLines(lines, d, parseNumber) == ApplyLines(lines[1..], next, parseNumber);
        ApplyErrorIsLineError(lines[1..], next, parseNumber);
        if ApplyLines(lines, d, parseNumber).Err? {
          var k :| && 0 <= k < |lines| - 1
                   && ParseLine(lines[1..][k], parseNumber).Err?
                   && ApplyLines(lines[1..], next, parseNumber) == Err(ParseLine(lines[1..][k], parseNumber).error)
                   && forall j :: 0 <= j < k ==> ParseLine(lines[1..][j], parseNumber).Ok?;
          assert lines[1..][k] == lines[k + 1];
          forall j | 0 <= j < k + 1 ensures ParseLine(lines[j], parseNumber).Ok? {
            if j > 0 { assert lines[j] == lines[1..][j - 1]; }
          }
        }
      }
    }
  }

  /** Lines after the 39th are never read. */
  lemma OnlyFirstLinesMatter(file: seq<string>, parseNumber: string -> Option<real>)
    requires |file| >= LinesRead
    ensures ParseConfigFile(file, parseNumber) == ParseConfigFile(file[..LinesRead], parseNumber)
  {
    assert ReadLines(file) == ReadLines(file[..LinesRead]);
  }
}

=== FILE: errors.dfy ===
/** Failure-compatible results shared by every stage of the radar pipeline.
    Each `Error` names the exception the processing code raises for that case. */
module Errors {

  datatype Error =
    | MissingKey(key: string)          // KeyError on a configuration lookup
    | DivisionByZero(quantity: string) // ZeroDivisionError while deriving a constant
    | MalformedLine                    // IndexError: a configuration line without " = "
    | BadNumber                        // ValueError from float() on a configuration value
    | EmptyTransform                   // ValueError: an FFT asked for zero points
    | IndexOutOfRange                  // IndexError on an array access
    | UnknownDevice                    // UnboundLocalError: no antenna layout for the device
    | NegativeCount                    // ValueError: linspace with a negative number of samples
    | EmptyAverage                     // mean over an empty axis
    | TooManyDimensions                // ValueError from cov_matrix
    | MissingAxis                      // IndexError: a 1-D array has no second dimension
    | NotSquare                        // AssertionError from forward_backward_avg
    | ShapeMismatch                    // ValueError: operands cannot be multiplied
    | SingularMatrix                   // LinAlgError from the matrix inverse
    | NotOneDimensional                // Exception from matlabMultip

  datatype Option<+T> = None | Some(value: T)

  datatype Result<+T> = Ok(value: T) | Err(error: Error) {

    predicate IsFailure() {
      Err?
    }

    function PropagateFailure<U>(): Result<U>
      requires Err?
    {
      Err(error)
    }

    function Extract(): T
      requires Ok?
    {
      value
    }
  }
}

=== FILE: fourier.dfy ===
/** The structural side of the range, Doppler and angle transforms: which cells
    are cleared, where each virtual antenna lands in the radar cube, how the
    spectra are averaged and shifted, the shapes of every output, and the bin
    axes. The transforms and magnitudes themselves are parameters. */
module Fourier {
  import opened Errors
  import opened ComplexNumbers
  import opened Matrices
  import opened NdArrays
  import opened Axes
  import Params

  /** Range bins cleared after the range transform (near-field suppression). */
  const NearFieldBins: nat := 8
  /** Zero-padding factor of the range-Doppler transform, on both axes. */
  const DopplerPadding: nat := 4
  /** Virtual antennas (3 TX x 4 RX) that feed the radar cube. */
  const VirtualAntennas: nat := 12

  type Cube = seq<seq<seq<Complex>>>

  predicate IsCube(c: Cube, d0: nat, d1: nat, d2: nat) {
    |c| == d0 && forall i :: 0 <= i < d0 ==> IsMatrix(c[i], d1, d2)
  }

  /** A one-dimensional FFT returns as many points as it is given. */
  ghost predicate PreservesLength(fft: Vector -> Vector) {
    forall v :: |fft(v)| == |v|
  }

  /** A two-dimensional FFT zero-padded or cropped to rows x cols has that shape. */
  ghost predicate PadsTo(fft2: (Matrix, nat, nat) -> Matrix) {
    forall m, rows, cols :: IsMatrix(fft2(m, rows, cols), rows, cols)
  }

  // ---------------------------------------------------------------- layouts

  /** A cell of the radar cube's antenna plane: empty, or fed by a virtual antenna. */
  datatype Cell = Blank | Antenna(index: nat)

  type Layout = seq<seq<Cell>>

  /** IWR6843ISK-ODS: a 4 x 4 plane with the lower-left 2 x 2 block empty. */
  const OdsLayout: Layout := [
    [Antenna(0), Antenna(3), Antenna(4), Antenna(7)],
    [Antenna(1), Antenna(2), Antenna(5), Antenna(6)],
    [Blank, Blank, Antenna(8), Antenna(11)],
    [Blank, Blank, Antenna(9), Antenna(10)]]

  /** IWR1843: a 2 x 8 plane, the elevated transmitter's four antennas on top. */
  const Iwr1843Layout: Layout := [
    [Blank, Blank, Antenna(4), Antenna(5), Antenna(6), Antenna(7), Blank, Blank],
    [Antenna(0), Antenna(1), Antenna(2), Antenna(3), Antenna(8), Antenna(9), Antenna(10), Antenna(11)]]

  /** (row, column) of each virtual antenna, indexed by antenna. */
  const OdsPositions: seq<(nat, nat)> :=
    [(0, 0), (1, 0), (1, 1), (0, 1), (0, 2), (1, 2), (1, 3), (0, 3), (2, 2), (3, 2), (3, 3), (2, 3)]

  const Iwr1843Positions: seq<(nat, nat)> :=
    [(1, 0), (1, 1), (1, 2), (1, 3), (0, 2), (0, 3), (0, 4), (0, 5), (1, 4), (1, 5), (1, 6), (1, 7)]

  /** The supported devices, by the name the caller passes. */
  datatype Device = Ods | Iwr1843

  function DeviceNamed(name: string): (d: Option<Device>)
    ensures d == Some(Ods) <==> name == "IWR6843ISK-ODS"
    ensures d == Some(Iwr1843) <==> name == "IWR1843"
  {
    if name == "IWR6843ISK-ODS" then Some(Ods)
    else if name == "IWR1843" then Some(Iwr1843)
    else None
  }

  function LayoutOf(d: Device): Layout {
    match d
    case Ods => OdsLayout
    case Iwr1843 => Iwr1843Layout
  }

  function PositionsOf(d: Device): seq<(nat, nat)> {
    match d
    case Ods => OdsPositions
    case Iwr1843 => Iwr1843Positions
  }

  /** Every row of the plane has `cols` cells. */
  predicate Rectangular(layout: Layout, rows: nat, cols: nat) {
    |layout| == rows && forall r :: 0 <= r < rows ==> |layout[r]| == cols
  }

  /** The plane holds antenna v at positions[v] and nowhere else, for each of the
      virtual antennas, and holds nothing else: a bijection between antennas and
      the non-blank cells. */
  predicate Places(layout: Layout, positions: seq<(nat, nat)>) {
    && |positions| == VirtualAntennas
    && (forall v :: 0 <= v < VirtualAntennas ==>
          positions[v].0 < |layout| && positions[v].1 < |layout[positions[v].0]|
          && layout[positions[v].0][positions[v].1] == Antenna(v))
    && (forall r, c :: 0 <= r < |layout| && 0 <= c < |layout[r]| && layout[r][c].Antenna? ==>
          layout[r][c].index < VirtualAntennas && positions[layout[r][c].index] == (r, c))
  }

  /** Both antenna planes place each of the 12 virtual antennas in exactly one cell. */
  lemma LayoutsArePlacements(d: Device)
    ensures d == Ods ==> Rectangular(LayoutOf(d), 4, 4)
    ensures d == Iwr1843 ==> Rectangular(LayoutOf(d), 2, 8)
    ensures Places(LayoutOf(d), PositionsOf(d))
  {
    var layout := LayoutOf(d);
    var positions := PositionsOf(d);
    forall v | 0 <= v < VirtualAntennas
      ensures positions[v].0 < |layout| && positions[v].1 < |layout[positions[v].0]|
      ensures layout[positions[v].0][positions[v].1] == Antenna(v)
    {
      assert v == 0 || v == 1 || v == 2 || v == 3 || v == 4 || v == 5
        || v == 6 || v == 7 || v == 8 || v == 9 || v == 10 || v == 11;
    }
    forall r, c | 0 <= r < |layout| && 0 <= c < |layout[r]| && layout[r][c].Antenna?
      ensures layout[r][c].index < VirtualAntennas && positions[layout[r][c].index] == (r, c)
    {
      assert r == 0 || r == 1 || r == 2 || r == 3;
      assert c == 0 || c == 1 || c == 2 || c == 3 || c == 4 || c == 5 || c == 6 || c == 7;
    }
  }

  /** Two cells that hold the same antenna are the same cell. */
  lemma PlacedOnce(layout: Layout, positions: seq<(nat, nat)>, r1: nat, c1: nat, r2: nat, c2: nat)
    requires Places(layout, positions)
    requires r1 < |layout| && c1 < |layout[r1]| && r2 < |layout| && c2 < |layout[r2]|
    requires layout[r1][c1].Antenna? && layout[r1][c1] == layout[r2][c2]
    ensures r1 == r2 && c1 == c2
  {
  }

  // ------------------------------------------------------------ range FFT

  /** The radar cube, the near-field-cleared range spectrum (one row per virtual
      antenna) and the range axis. */
  datatype RangeOutput = RangeOutput(cube: Cube, spectrum: Matrix, rangeBins: seq<real>)

  /** A range spectrum with its first NearFieldBins bins set to zero. */
  function ClearNearField(row: Vector): (r: Vector)
    ensures |r| == |row|
    ensures forall n :: 0 <= n < |row| ==> r[n] == (if n < NearFieldBins then Zero else row[n])
  {
    seq(|row|, n requires 0 <= n < |row| => if n < NearFieldBins then Zero else row[n])
  }

  /** Bin n of the cube cell fed as `cell` says: zero for a blank cell. */
  function CellValue(cell: Cell, spectrum: Matrix, n: nat): Complex
    requires cell.Antenna? ==> cell.index < |spectrum| && n < |spectrum[cell.index]|
  {
    match cell
    case Blank => Zero
    case Antenna(v) => spectrum[v][n]
  }

  /** Every antenna the layout mentions has a spectrum row of `bins` entries. */
  predicate Feeds(layout: Layout, spectrum: Matrix, bins: nat) {
    forall r, c :: 0 <= r < |layout| && 0 <= c < |layout[r]| && layout[r][c].Antenna? ==>
      layout[r][c].index < |spectrum| && |spectrum[layout[r][c].index]| == bins
  }

  /** A placement of the 12 antennas is fed by any spectrum of at least 12 rows of `bins` entries. */
  lemma PlacementFeeds(layout: Layout, positions: seq<(nat, nat)>, spectrum: Matrix, bins: nat)
    requires Places(layout, positions)
    requires |spectrum| >= VirtualAntennas && IsMatrix(spectrum, |spectrum|, bins)
    ensures Feeds(layout, spectrum, bins)
  {
  }

  /** The cube has one cell per layout cell, each holding `bins` range bins. */
  predicate Shaped(cube: Cube, layout: Layout, bins: nat) {
    && |cube| == |layout|
    && (forall r :: 0 <= r < |layout| ==> |cube[r]| == |layout[r]|)
    && (forall r, c :: 0 <= r < |layout| && 0 <= c < |layout[r]| ==> |cube[r][c]| == bins)
  }

  /** The cube indexed [row][column][range bin], each cell taken from the layout. */
  function BuildCube(layout: Layout, spectrum: Matrix, bins: nat): (cube: Cube)
    requires Feeds(layout, spectrum, bins)
    ensures Shaped(cube, layout, bins)
    ensures forall r, c, n :: 0 <= r < |layout| && 0 <= c < |layout[r]| && 0 <= n < bins ==>
      cube[r][c][n] == CellValue(layout[r][c], spectrum, n)
  {
    seq(|layout|, r requires 0 <= r < |layout| =>
      seq(|layout[r]|, c requires 0 <= c < |layout[r]| =>
        seq(bins, n requires 0 <= n < bins => CellValue(layout[r][c], spectrum, n))))
  }

  /** The range spectrum of every antenna row, near-field bins cleared. */
  function RangeSpectrum(signal: Matrix, samples: nat, fft: Vector -> Vector): (s: Matrix)
    requires IsMatrix(signal, |signal|, samples)
    requires PreservesLength(fft)
    ensures IsMatrix(s, |signal|, samples)
    ensures forall a, n :: 0 <= a < |signal| && 0 <= n < samples ==>
      s[a][n] == (if n < NearFieldBins then Zero else fft(signal[a])[n])
  {
    seq(|signal|, a requires 0 <= a < |signal| => ClearNearField(fft(signal[a])))
  }

  /** `rangeFFT(signal, device)`: one FFT per virtual antenna along the samples,
      the first bins cleared, the spectra arranged into the device's radar cube,
      and the range axis from 0 to R_MAX. Fails as `rangeFFT` does: a transform
      of no samples, a known device given fewer than 12 antenna rows, a negative
      NUM_RANGE_BINS, and (last) a device it has no layout for. */
  function RangeFft(signal: Matrix, samples: nat, device: string, p: Params.RadarParams, fft: Vector -> Vector): (r: Result<RangeOutput>)
    requires IsMatrix(signal, |signal|, samples)
    requires PreservesLength(fft)
    ensures r.Err? <==>
      samples == 0 || DeviceNamed(device).None? || |signal| < VirtualAntennas || p.range.numRangeBins < 0
    ensures samples == 0 ==> r == Err(EmptyTransform)
    ensures samples > 0 && DeviceNamed(device).Some? && |signal| < VirtualAntennas ==> r == Err(IndexOutOfRange)
    ensures samples > 0 && !(DeviceNamed(device).Some? && |signal| < VirtualAntennas) && p.range.numRangeBins < 0 ==>
      r == Err(NegativeCount)
    ensures samples > 0 && DeviceNamed(device).None? && p.range.numRangeBins >= 0 ==> r == Err(UnknownDevice)
    ensures r.Ok? ==> r.value.spectrum == RangeSpectrum(signal, samples, fft)
    ensures r.Ok? ==>
      && Feeds(LayoutOf(DeviceNamed(device).value), r.value.spectrum, samples)
      && r.value.cube == BuildCube(LayoutOf(DeviceNamed(device).value), r.value.spectrum, samples)
    ensures r.Ok? ==> r.value.rangeBins == Linspace(0.0, p.range.rangeMax, p.range.numRangeBins).value
  {
    if samples == 0 then Err(EmptyTransform)
    else
      var spectrum := RangeSpectrum(signal, samples, fft);
      var device := DeviceNamed(device);
      if device.Some? && |signal| < VirtualAntennas then Err(IndexOutOfRange)
      else
        var rangeBins :- Linspace(0.0, p.range.rangeMax, p.range.numRangeBins);
        if device.None? then Err(UnknownDevice)
        else
          LayoutsArePlacements(device.value);
          PlacementFeeds(LayoutOf(device.value), PositionsOf(device.value), spectrum, samples);
          Ok(RangeOutput(BuildCube(LayoutOf(device.value), spectrum, samples), spectrum, rangeBins))
  }

  /** In a cube built from a placement, antenna v's spectrum sits at positions[v]
      and every blank cell is zero. */
  lemma CubePlacement(layout: Layout, positions: seq<(nat, nat)>, spectrum: Matrix, bins: nat)
    requires Places(layout, positions) && Feeds(layout, spectrum, bins)
    ensures var cube := BuildCube(layout, spectrum, bins);
      forall v, n :: 0 <= v < VirtualAntennas && 0 <= n < bins ==>
        cube[positions[v].0][positions[v].1][n] == spectrum[v][n]
    ensures var cube := BuildCube(layout, spectrum, bins);
      forall row, c, n :: 0 <= row < |layout| && 0 <= c < |layout[row]| && 0 <= n < bins && layout[row][c] == Blank ==>
        cube[row][c][n] == Zero
  {
  }

  /** In the range cube, antenna v's cleared spectrum sits at the device's position
      for v, and every blank cell is zero. */
  lemma RangeCubePlacement(signal: Matrix, samples: nat, device: string, p: Params.RadarParams, fft: Vector -> Vector)
    requires IsMatrix(signal, |signal|, samples)
    requires PreservesLength(fft)
    requires RangeFft(signal, samples, device, p, fft).Ok?
    ensures var out := RangeFft(signal, samples, device, p, fft).value;
      var pos := PositionsOf(DeviceNamed(device).value);
      Shaped(out.cube, LayoutOf(DeviceNamed(device).value), samples)
      && forall v, n :: 0 <= v < VirtualAntennas && 0 <= n < samples ==>
        out.cube[pos[v].0][pos[v].1][n] == (if n < NearFieldBins then Zero else fft(signal[v])[n])
    ensures var out := RangeFft(signal, samples, device, p, fft).value;
      var layout := LayoutOf(DeviceNamed(device).value);
      Shaped(out.cube, layout, samples)
      && forall row, c, n :: 0 <= row < |layout| && 0 <= c < |layout[row]| && 0 <= n < samples && layout[row][c] == Blank ==>
        out.cube[row][c][n] == Zero
  {
    var d := DeviceNamed(device).value;
    var out := RangeFft(signal, samples, device, p, fft).value;
    LayoutsArePlacements(d);
    CubePlacement(LayoutOf(d), PositionsOf(d), out.spectrum, samples);
  }

  /** The range axis runs from 0 to R_MAX in NUM_RANGE_BINS points, so its spacing
      is R_MAX / (N - 1) = R_BIN · N / (N - 1): slightly wider than one range bin. */
  lemma RangeAxisSpacing(p: Params.RadarParams)
    requires Params.Consistent(p) && p.range.numRangeBins >= 2
    ensures var n := p.range.numRangeBins;
      var axis := Linspace(0.0, p.range.rangeMax, n).value;
      && axis[0] == 0.0 && axis[n - 1] == p.range.rangeMax
      && forall i :: 0 <= i < n - 1 ==> (axis[i + 1] - axis[i]) * (n - 1) as real == p.range.rangeBin * n as real
  {
    var n := p.range.numRangeBins;
    LinspaceSteps(0.0, p.range.rangeMax, n);
    var step := (p.range.rangeMax - 0.0) / (n - 1) as real;
    assert step * (n - 1) as real == p.range.rangeMax;
  }

  // ------------------------------------------------------ shifts and means

  /** numpy's `fftshift` along an axis of length n: output index i holds input
      index ShiftIndex(i, n), a rotation by n/2 that moves index 0 to the middle. */
  function ShiftIndex(i: nat, n: nat): (j: nat)
    requires i < n
    ensures j < n
    ensures j == (i + n - n / 2) % n
  {
    if i < n / 2 then i + (n - n / 2) else i - n / 2
  }

  /** The shift is a permutation that puts the zero-frequency entry at index n/2,
      and for even n (every padded axis here) applying it twice is the identity. */
  lemma ShiftIndexFacts(n: nat)
    ensures forall i, k :: 0 <= i < n && 0 <= k < n && ShiftIndex(i, n) == ShiftIndex(k, n) ==> i == k
    ensures n > 0 ==> ShiftIndex(n / 2, n) == 0
    ensures n % 2 == 0 ==> forall i :: 0 <= i < n ==> ShiftIndex(ShiftIndex(i, n), n) == i
  {
  }

  /** On an even-length axis the shift is its own inverse. */
  lemma ShiftTwice(i: nat, n: nat)
    requires i < n && n % 2 == 0
    ensures ShiftIndex(ShiftIndex(i, n), n) == i
    ensures ShiftIndex(n / 2, n) == 0
  {
  }

  /** Padded axes have even length. */
  lemma PaddedIsEven(n: nat)
    ensures (n * DopplerPadding) % 2 == 0
  {
    assert n * DopplerPadding == 2 * (2 * n);
  }

  function Sum(xs: seq<real>): real {
    if |xs| == 0 then 0.0 else xs[0] + Sum(xs[1..])
  }

  /** numpy's `mean` of a non-empty axis. */
  function Mean(xs: seq<real>): real
    requires |xs| > 0
  {
    Sum(xs) / |xs| as real
  }

  lemma {:induction false} SumBounds(xs: seq<real>, c: real)
    ensures (forall i :: 0 <= i < |xs| ==> xs[i] >= 0.0) ==> Sum(xs) >= 0.0
    ensures (forall i :: 0 <= i < |xs| ==> xs[i] == c) ==> Sum(xs) == |xs| as real * c
  {
    if |xs| > 0 {
      assert forall i :: 0 <= i < |xs| - 1 ==> xs[1..][i] == xs[i + 1];
      SumBounds(xs[1..], c);
    }
  }

  /** A mean of magnitudes is a magnitude, and the mean of equal values is that value. */
  lemma MeanBounds(xs: seq<real>, c: real)
    requires |xs| > 0
    ensures (forall i :: 0 <= i < |xs| ==> xs[i] >= 0.0) ==> Mean(xs) >= 0.0
    ensures (forall i :: 0 <= i < |xs| ==> xs[i] == c) ==> Mean(xs) == c
  {
    SumBounds(xs, c);
  }

  /** A magnitude is never negative. */
  ghost predicate NonNegative(abs: Complex -> real) {
    forall z :: abs(z) >= 0.0
  }

  // ---------------------------------------------------------- Doppler FFT

  /** The range-Doppler map (Doppler rows, range columns) and its two axes. */
  datatype DopplerOutput = DopplerOutput(spectrum: seq<seq<real>>, dopplerBins: seq<real>, rangeBins: seq<real>)

  /** `signal[:, a, :]`: every chirp loop of virtual antenna a. */
  function AntennaSlice(signal: Cube, antennas: nat, samples: nat, a: nat): (m: Matrix)
    requires IsCube(signal, |signal|, antennas, samples) && a < antennas
    ensures IsMatrix(m, |signal|, samples)
    ensures forall l, s :: 0 <= l < |signal| && 0 <= s < samples ==> m[l][s] == signal[l][a][s]
  {
    seq(|signal|, l requires 0 <= l < |signal| => signal[l][a])
  }

  /** |fft2(signal[:, a, :])[i][j]| for every antenna a, the FFT padded four-fold. */
  function AntennaMagnitudes(signal: Cube, antennas: nat, samples: nat,
                             fft2: (Matrix, nat, nat) -> Matrix, abs: Complex -> real, i: nat, j: nat): (mags: seq<real>)
    requires IsCube(signal, |signal|, antennas, samples)
    requires PadsTo(fft2)
    requires i < |signal| * DopplerPadding && j < samples * DopplerPadding
    ensures |mags| == antennas
    ensures forall a :: 0 <= a < antennas ==>
      mags[a] == abs(fft2(AntennaSlice(signal, antennas, samples, a), |signal| * DopplerPadding, samples * DopplerPadding)[i][j])
  {
    var rows := |signal| * DopplerPadding;
    var cols := samples * DopplerPadding;
    seq(antennas, a requires 0 <= a < antennas => abs(fft2(AntennaSlice(signal, antennas, samples, a), rows, cols)[i][j]))
  }

  /** The padded range-Doppler magnitude averaged over the antennas, before the shift. */
  function AveragedDoppler(signal: Cube, antennas: nat, samples: nat,
                           fft2: (Matrix, nat, nat) -> Matrix, abs: Complex -> real): (m: seq<seq<real>>)
    requires IsCube(signal, |signal|, antennas, samples) && antennas > 0
    requires PadsTo(fft2)
    ensures |m| == |signal| * DopplerPadding
    ensures forall i :: 0 <= i < |m| ==> |m[i]| == samples * DopplerPadding
    ensures forall i, j :: 0 <= i < |signal| * DopplerPadding && 0 <= j < samples * DopplerPadding ==>
      m[i][j] == Mean(AntennaMagnitudes(signal, antennas, samples, fft2, abs, i, j))
  {
    var rows := |signal| * DopplerPadding;
    var cols := samples * DopplerPadding;
    seq(rows, i requires 0 <= i < rows =>
      seq(cols, j requires 0 <= j < cols => Mean(AntennaMagnitudes(signal, antennas, samples, fft2, abs, i, j))))
  }

  /** `dopplerFFT(signal)` on a loops x antennas x samples cube: a 2-D FFT per
      antenna padded four-fold on both axes, the magnitude averaged over antennas,
      shifted along Doppler so zero velocity sits mid-axis, the near-field columns
      cleared, and the Doppler axis from -DOPPLER_MAX to DOPPLER_MAX with the range
      axis from 0 to R_MAX. */
  function DopplerFft(signal: Cube, antennas: nat, samples: nat, p: Params.RadarParams,
                      fft2: (Matrix, nat, nat) -> Matrix, abs: Complex -> real): (r: Result<DopplerOutput>)
    requires IsCube(signal, |signal|, antennas, samples)
    requires PadsTo(fft2)
    ensures r.Err? <==> antennas == 0 || |signal| == 0 || samples == 0
    ensures antennas == 0 ==> r == Err(EmptyAverage)
    ensures antennas > 0 && (|signal| == 0 || samples == 0) ==> r == Err(EmptyTransform)
    ensures r.Ok? ==>
      && |r.value.spectrum| == |signal| * DopplerPadding
      && (forall i :: 0 <= i < |r.value.spectrum| ==> |r.value.spectrum[i]| == samples * DopplerPadding)
    ensures r.Ok? ==> forall i, j :: 0 <= i < |signal| * DopplerPadding && 0 <= j < samples * DopplerPadding ==>
      r.value.spectrum[i][j] == if j < NearFieldBins * DopplerPadding then 0.0
        else AveragedDoppler(signal, antennas, samples, fft2, abs)[ShiftIndex(i, |signal| * DopplerPadding)][j]
    ensures r.Ok? ==> r.value.dopplerBins == Linspace(-p.doppler.dopplerMax, p.doppler.dopplerMax, |signal| * DopplerPadding).value
    ensures r.Ok? ==> r.value.rangeBins == Linspace(0.0, p.range.rangeMax, samples * DopplerPadding).value
  {
    if antennas == 0 then Err(EmptyAverage)
    else if |signal| == 0 || samples == 0 then Err(EmptyTransform)
    else
      var rows := |signal| * DopplerPadding;
      var cols := samples * DopplerPadding;
      var averaged := AveragedDoppler(signal, antennas, samples, fft2, abs);
      var spectrum := seq(rows, i requires 0 <= i < rows =>
        seq(cols, j requires 0 <= j < cols =>
          if j < NearFieldBins * DopplerPadding then 0.0 else averaged[ShiftIndex(i, rows)][j]));
      Ok(DopplerOutput(spectrum,
        Linspace(-p.doppler.dopplerMax, p.doppler.dopplerMax, rows).value,
        Linspace(0.0, p.range.rangeMax, cols).value))
  }

  /** Undoing the shift: Doppler row k of the unshifted average appears at row
      ShiftIndex(k) of the map, so zero velocity lands on the middle row. */
  lemma DopplerShiftUndone(signal: Cube, antennas: nat, samples: nat, p: Params.RadarParams,
                           fft2: (Matrix, nat, nat) -> Matrix, abs: Complex -> real)
    requires IsCube(signal, |signal|, antennas, samples)
    requires PadsTo(fft2)
    requires DopplerFft(signal, antennas, samples, p, fft2, abs).Ok?
    ensures var dmap := DopplerFft(signal, antennas, samples, p, fft2, abs).value.spectrum;
      var avg := AveragedDoppler(signal, antennas, samples, fft2, abs);
      var rows := |signal| * DopplerPadding;
      && (forall k, j :: 0 <= k < rows && NearFieldBins * DopplerPadding <= j < samples * DopplerPadding ==>
            dmap[ShiftIndex(k, rows)][j] == avg[k][j])
      && (forall j :: NearFieldBins * DopplerPadding <= j < samples * DopplerPadding ==>
            dmap[rows / 2][j] == avg[0][j])
  {
    var rows := |signal| * DopplerPadding;
    var cols := samples * DopplerPadding;
    var dmap := DopplerFft(signal, antennas, samples, p, fft2, abs).value.spectrum;
    var avg := AveragedDoppler(signal, antennas, samples, fft2, abs);
    PaddedIsEven(|signal|);
    forall k, j | 0 <= k < rows && NearFieldBins * DopplerPadding <= j < cols
      ensures dmap[ShiftIndex(k, rows)][j] == avg[k][j]
    {
      ShiftTwice(k, rows);
    }
    ShiftTwice(0, rows);
  }

  /** The Doppler axis is symmetric about zero and spans -DOPPLER_MAX..DOPPLER_MAX,
      rising when DOPPLER_MAX is positive. */
  lemma DopplerAxis(signal: Cube, antennas: nat, samples: nat, p: Params.RadarParams,
                    fft2: (Matrix, nat, nat) -> Matrix, abs: Complex -> real)
    requires IsCube(signal, |signal|, antennas, samples)
    requires PadsTo(fft2)
    requires DopplerFft(signal, antennas, samples, p, fft2, abs).Ok?
    ensures var bins := DopplerFft(signal, antennas, samples, p, fft2, abs).value.dopplerBins;
      var rows := |signal| * DopplerPadding;
      && |bins| == rows
      && bins[0] == -p.doppler.dopplerMax && bins[rows - 1] == p.doppler.dopplerMax
      && (forall i :: 0 <= i < rows ==> bins[i] == -bins[rows - 1 - i])
      && (p.doppler.dopplerMax > 0.0 ==> forall i, j :: 0 <= i < j < rows ==> bins[i] < bins[j])
  {
    var rows := |signal| * DopplerPadding;
    var dMax := p.doppler.dopplerMax;
    var bins := DopplerFft(signal, antennas, samples, p, fft2, abs).value.dopplerBins;
    assert bins == Linspace(-dMax, dMax, rows).value;
    LinspaceSymmetric(dMax, rows);
    if dMax > 0.0 {
      LinspaceIncreasing(-dMax, dMax, rows);
    }
  }

  /** With a non-negative magnitude the whole range-Doppler map is non-negative. */
  lemma DopplerMapNonNegative(signal: Cube, antennas: nat, samples: nat, p: Params.RadarParams,
                              fft2: (Matrix, nat, nat) -> Matrix, abs: Complex -> real)
    requires IsCube(signal, |signal|, antennas, samples)
    requires PadsTo(fft2) && NonNegative(abs)
    requires DopplerFft(signal, antennas, samples, p, fft2, abs).Ok?
    ensures var dmap := DopplerFft(signal, antennas, samples, p, fft2, abs).value.spectrum;
      forall i, j :: 0 <= i < |dmap| && 0 <= j < |dmap[i]| ==> dmap[i][j] >= 0.0
  {
    var rows := |signal| * DopplerPadding;
    var cols := samples * DopplerPadding;
    forall i, j | 0 <= i < rows && 0 <= j < cols
      ensures AveragedDoppler(signal, antennas, samples, fft2, abs)[i][j] >= 0.0
    {
      MeanBounds(AntennaMagnitudes(signal, antennas, samples, fft2, abs, i, j), 0.0);
    }
  }

  // ------------------------------------------------------------ angle FFT

  /** Rows (elevation) and columns (azimuth) of the padded angle transform. */
  const ElevationBins: nat := Params.NumElevationBins as nat
  const AzimuthBins: nat := Params.NumAzimuthBins as nat

  /** Azimuth profile (azimuth x range bin), elevation profile (elevation x range
      bin) and the two angle axes in degrees. */
  datatype AngleOutput = AngleOutput(azimuth: seq<seq<real>>, elevation: seq<seq<real>>,
                                     azimuthBins: seq<real>, elevationBins: seq<real>)

  /** `cube[:, :, n]`: the antenna plane at range bin n. */
  function BinSlice(cube: Cube, cols: nat, bins: nat, n: nat): (m: Matrix)
    requires IsCube(cube, |cube|, cols, bins) && n < bins
    ensures IsMatrix(m, |cube|, cols)
    ensures forall r, c :: 0 <= r < |cube| && 0 <= c < cols ==> m[r][c] == cube[r][c][n]
  {
    seq(|cube|, r requires 0 <= r < |cube| => seq(cols, c requires 0 <= c < cols => cube[r][c][n]))
  }

  /** The angle spectrum of range bin n, padded to 32 x 64 and shifted on both axes:
      entry (e, a) is the transform's entry (ShiftIndex(e), ShiftIndex(a)). */
  function ShiftedAngleSpectrum(cube: Cube, cols: nat, bins: nat, fft2: (Matrix, nat, nat) -> Matrix, n: nat): (s: Matrix)
    requires IsCube(cube, |cube|, cols, bins) && n < bins
    requires PadsTo(fft2)
    ensures IsMatrix(s, ElevationBins, AzimuthBins)
    ensures forall e, a :: 0 <= e < ElevationBins && 0 <= a < AzimuthBins ==>
      s[e][a] == fft2(BinSlice(cube, cols, bins, n), ElevationBins, AzimuthBins)
                   [ShiftIndex(e, ElevationBins)][ShiftIndex(a, AzimuthBins)]
  {
    var f := fft2(BinSlice(cube, cols, bins, n), ElevationBins, AzimuthBins);
    seq(ElevationBins, e requires 0 <= e < ElevationBins =>
      seq(AzimuthBins, a requires 0 <= a < AzimuthBins =>
        f[ShiftIndex(e, ElevationBins)][ShiftIndex(a, AzimuthBins)]))
  }

  /** Magnitudes of column a of a matrix (the elevation axis at azimuth a). */
  function ColumnMagnitudes(s: Matrix, a: nat, abs: Complex -> real): (mags: seq<real>)
    requires forall e :: 0 <= e < |s| ==> a < |s[e]|
    ensures |mags| == |s|
    ensures forall e :: 0 <= e < |s| ==> mags[e] == abs(s[e][a])
  {
    seq(|s|, e requires 0 <= e < |s| => abs(s[e][a]))
  }

  /** Magnitudes of one row of a matrix (the azimuth axis at one elevation). */
  function RowMagnitudes(row: Vector, abs: Complex -> real): (mags: seq<real>)
    ensures |mags| == |row|
    ensures forall a :: 0 <= a < |row| ==> mags[a] == abs(row[a])
  {
    seq(|row|, a requires 0 <= a < |row| => abs(row[a]))
  }

  /** `angleFFT(cube)`: per range bin, a 2-D FFT over the antenna plane padded to
      32 elevation x 64 azimuth bins and shifted on both axes; the azimuth profile
      averages the magnitude over elevation, the elevation profile over azimuth;
      the axes are the arcsine (in degrees) of the angle grids. It cannot fail. */
  function AngleFft(cube: Cube, cols: nat, bins: nat, fft2: (Matrix, nat, nat) -> Matrix,
                    abs: Complex -> real, arcsinDegrees: real -> real): (r: AngleOutput)
    requires IsCube(cube, |cube|, cols, bins)
    requires PadsTo(fft2)
    ensures |r.azimuth| == AzimuthBins && forall a :: 0 <= a < AzimuthBins ==> |r.azimuth[a]| == bins
    ensures |r.elevation| == ElevationBins && forall e :: 0 <= e < ElevationBins ==> |r.elevation[e]| == bins
    ensures forall a, n :: 0 <= a < AzimuthBins && 0 <= n < bins ==>
      r.azimuth[a][n] == Mean(ColumnMagnitudes(ShiftedAngleSpectrum(cube, cols, bins, fft2, n), a, abs))
    ensures forall e, n :: 0 <= e < ElevationBins && 0 <= n < bins ==>
      r.elevation[e][n] == Mean(RowMagnitudes(ShiftedAngleSpectrum(cube, cols, bins, fft2, n)[e], abs))
    ensures |r.azimuthBins| == AzimuthBins
      && forall a :: 0 <= a < AzimuthBins ==> r.azimuthBins[a] == arcsinDegrees(AngleGrid(AzimuthBins)[a])
    ensures |r.elevationBins| == ElevationBins
      && forall e :: 0 <= e < ElevationBins ==> r.elevationBins[e] == arcsinDegrees(AngleGrid(ElevationBins)[e])
  {
    var spectra := seq(bins, n requires 0 <= n < bins => ShiftedAngleSpectrum(cube, cols, bins, fft2, n));
    var azimuth := seq(AzimuthBins, a requires 0 <= a < AzimuthBins =>
      seq(bins, n requires 0 <= n < bins => Mean(ColumnMagnitudes(spectra[n], a, abs))));
    var elevation := seq(ElevationBins, e requires 0 <= e < ElevationBins =>
      seq(bins, n requires 0 <= n < bins => Mean(RowMagnitudes(spectra[n][e], abs))));
    var azimuthGrid := AngleGrid(AzimuthBins);
    var elevationGrid := AngleGrid(ElevationBins);
    AngleOutput(azimuth, elevation,
      seq(AzimuthBins, a requires 0 <= a < AzimuthBins => arcsinDegrees(azimuthGrid[a])),
      seq(ElevationBins, e requires 0 <= e < ElevationBins => arcsinDegrees(elevationGrid[e])))
  }

  /** With a non-negative magnitude both angle profiles are non-negative. */
  lemma AngleProfilesNonNegative(cube: Cube, cols: nat, bins: nat, fft2: (Matrix, nat, nat) -> Matrix,
                                 abs: Complex -> real, arcsinDegrees: real -> real)
    requires IsCube(cube, |cube|, cols, bins)
    requires PadsTo(fft2) && NonNegative(abs)
    ensures var r := AngleFft(cube, cols, bins, fft2, abs, arcsinDegrees);
      && (forall a, n :: 0 <= a < AzimuthBins && 0 <= n < bins ==> r.azimuth[a][n] >= 0.0)
      && (forall e, n :: 0 <= e < ElevationBins && 0 <= n < bins ==> r.elevation[e][n] >= 0.0)
  {
    var r := AngleFft(cube, cols, bins, fft2, abs, arcsinDegrees);
    forall a, n | 0 <= a < AzimuthBins && 0 <= n < bins
      ensures r.azimuth[a][n] >= 0.0
    {
      MeanBounds(ColumnMagnitudes(ShiftedAngleSpectrum(cube, cols, bins, fft2, n), a, abs), 0.0);
    }
    forall e, n | 0 <= e < ElevationBins && 0 <= n < bins
      ensures r.elevation[e][n] >= 0.0
    {
      MeanBounds(RowMagnitudes(ShiftedAngleSpectrum(cube, cols, bins, fft2, n)[e], abs), 0.0);
    }
  }

  /** The arcsine is only ever taken inside [-1, 1): every grid point lies in
      [-1, 1 - 2/N]. The middle bin of each axis is both the zero angle of the grid
      and the zero spatial frequency of the shifted transform. */
  lemma AngleAxesAligned()
    ensures forall a :: 0 <= a < AzimuthBins ==> -1.0 <= AngleGrid(AzimuthBins)[a] < 1.0
    ensures forall e :: 0 <= e < ElevationBins ==> -1.0 <= AngleGrid(ElevationBins)[e] < 1.0
    ensures AngleGrid(AzimuthBins)[AzimuthBins / 2] == 0.0 && ShiftIndex(AzimuthBins / 2, AzimuthBins) == 0
    ensures AngleGrid(ElevationBins)[ElevationBins / 2] == 0.0 && ShiftIndex(ElevationBins / 2, ElevationBins) == 0
  {
    AngleGridValues(AzimuthBins);
    AngleGridValues(ElevationBins);
    AngleGridFormula(AzimuthBins);
    AngleGridFormula(ElevationBins);
  }

  // ---------------------------------------------------------- matlabMultip

  /** The product table: row i is f[i] * t. */
  function OuterProduct(f: Vector, t: Vector): (m: Matrix)
    ensures IsMatrix(m, |f|, |t|)
    ensures forall i, j :: 0 <= i < |f| && 0 <= j < |t| ==> m[i][j] == Mul(f[i], t[j])
  {
    seq(|f|, i requires 0 <= i < |f| => ScaleVec(f[i], t))
  }

  /** Copies of the rows of m scaled by each f[i] in turn, stacked along the first axis. */
  function StackScaledRows(f: Vector, m: Matrix): (r: Matrix)
    ensures |r| == |f| * |m|
  {
    var blocks := seq(|f|, i requires 0 <= i < |f| =>
      seq(|m|, k requires 0 <= k < |m| => ScaleVec(f[i], m[k])));
    ConcatLength(blocks, |m|);
    Concat(blocks)
  }

  /** Row i * |m| + k of the stack is m[k] scaled by f[i]. */
  lemma StackScaledRowsAt(f: Vector, m: Matrix, i: nat, k: nat)
    requires i < |f| && k < |m|
    ensures i * |m| + k < |StackScaledRows(f, m)| && StackScaledRows(f, m)[i * |m| + k] == ScaleVec(f[i], m[k])
  {
    var blocks := seq(|f|, i requires 0 <= i < |f| =>
      seq(|m|, k requires 0 <= k < |m| => ScaleVec(f[i], m[k])));
    ConcatAt(blocks, |m|, i, k);
  }

  /** Copies of the flat entries scaled by each f[i] in turn, stacked along the first axis. */
  function StackScaledFlat(f: Vector, flat: Vector): (r: Vector)
    ensures |r| == |f| * |flat|
  {
    var blocks := seq(|f|, i requires 0 <= i < |f| => ScaleVec(f[i], flat));
    ConcatLength(blocks, |flat|);
    Concat(blocks)
  }

  /** Entry i * |flat| + k of the stack is f[i] * flat[k]. */
  lemma StackScaledFlatAt(f: Vector, flat: Vector, i: nat, k: nat)
    requires i < |f| && k < |flat|
    ensures i * |flat| + k < |StackScaledFlat(f, flat)| && StackScaledFlat(f, flat)[i * |flat| + k] == Mul(f[i], flat[k])
  {
    var blocks := seq(|f|, i requires 0 <= i < |f| => ScaleVec(f[i], flat));
    ConcatAt(blocks, |flat|, i, k);
  }

  /** `matlabMultip(f, t)`: the product table of f against t, one row f[i] * t per
      element of f, stacked with `vstack`. t must be one-dimensional in numpy's test
      (its size equals its first dimension); a single-element f gives f[0] * t
      unstacked, and an empty f fails on `f[0]`. */
  function MatlabMultip(f: Vector, t: NdArray): (r: Result<NdArray>)
    requires WellFormed(t)
    ensures r.Err? <==> Size(t) != Leading(t) || |f| == 0
    ensures Size(t) != Leading(t) ==> r == Err(NotOneDimensional)
    ensures Size(t) == Leading(t) && |f| == 0 ==> r == Err(IndexOutOfRange)
    ensures r.Ok? && t.Vec? && |f| == 1 ==> r.value == Vec(ScaleVec(f[0], t.entries))
    ensures r.Ok? && t.Vec? && |f| >= 2 ==> r.value == Mat(|t.entries|, OuterProduct(f, t.entries))
    ensures r.Ok? && t.Mat? ==> r.value == Mat(t.cols, StackScaledRows(f, t.rows))
    ensures r.Ok? && t.Tensor? ==>
      r.value == Tensor(t.shape[0 := |f| * t.shape[0]], StackScaledFlat(f, t.flat))
  {
    if Size(t) != Leading(t) then Err(NotOneDimensional)
    else if |f| == 0 then Err(IndexOutOfRange)
    else
      match t
      case Vec(v) =>
        if |f| == 1 then Ok(Vec(ScaleVec(f[0], v))) else Ok(Mat(|v|, OuterProduct(f, v)))
      case Mat(cols, rows) => Ok(Mat(cols, StackScaledRows(f, rows)))
      case Tensor(shape, flat) => Ok(Tensor(shape[0 := |f| * shape[0]], StackScaledFlat(f, flat)))
  }

  /** A real number as a complex one. */
  function Real(x: real): Complex {
    Complex(x, 0.0)
  }

  /** The documented example: f = [2, 4] against t = [1, 2, 3, 4, 5] gives the
      2 x 5 table with rows [2, 4, 6, 8, 10] and [4, 8, 12, 16, 20]. */
  lemma MatlabMultipExample()
    ensures MatlabMultip([Real(2.0), Real(4.0)], Vec([Real(1.0), Real(2.0), Real(3.0), Real(4.0), Real(5.0)]))
      == Ok(Mat(5, [[Real(2.0), Real(4.0), Real(6.0), Real(8.0), Real(10.0)],
                    [Real(4.0), Real(8.0), Real(12.0), Real(16.0), Real(20.0)]]))
  {
    var f := [Real(2.0), Real(4.0)];
    var t := [Real(1.0), Real(2.0), Real(3.0), Real(4.0), Real(5.0)];
    var rows := [[Real(2.0), Real(4.0), Real(6.0), Real(8.0), Real(10.0)],
                 [Real(4.0), Real(8.0), Real(12.0), Real(16.0), Real(20.0)]];
    var table := OuterProduct(f, t);
    forall i | 0 <= i < 2
      ensures table[i] == rows[i]
    {
      forall j | 0 <= j < 5
        ensures table[i][j] == rows[i][j]
      {
        assert table[i][j] == Mul(f[i], t[j]);
      }
    }
    assert table == rows;
  }

  /** A one-dimensional t of two or more dimensions by shape is a single column or
      has no rows: numpy's test passes exactly then. */
  lemma MatlabMultipAcceptsColumns(f: Vector, cols: nat, rows: Matrix)
    requires IsMatrix(rows, |rows|, cols)
    ensures MatlabMultip(f, Mat(cols, rows)).Ok? <==> |f| > 0 && (cols == 1 || |rows| == 0)
  {
    if |rows| > 0 && cols != 1 {
      assert |rows| * cols != |rows|;
    }
  }
}

=== FILE: matrices.dfy ===
/** Dense complex matrices as rows of entries, with the products numpy's `@`
    and `np.matrix *` compute. */
module Matrices {
  import opened ComplexNumbers

  type Vector = seq<Complex>
  type Matrix = seq<seq<Complex>>

  /** m has `rows` rows of `cols` entries each (numpy arrays are rectangular). */
  predicate IsMatrix(m: Matrix, rows: nat, cols: nat) {
    |m| == rows && forall i :: 0 <= i < |m| ==> |m[i]| == cols
  }

  /** Sum of the entrywise products u[k]·v[k] (no conjugation). */
  function Dot(u: Vector, v: Vector): Complex
    requires |u| == |v|
  {
    if |u| == 0 then Zero else Add(Mul(u[0], v[0]), Dot(u[1..], v[1..]))
  }

  function ConjVec(v: Vector): (r: Vector)
    ensures |r| == |v|
    ensures forall i :: 0 <= i < |v| ==> r[i] == Conj(v[i])
  {
    seq(|v|, i requires 0 <= i < |v| => Conj(v[i]))
  }

  function Column(m: Matrix, j: nat): (c: Vector)
    requires forall i :: 0 <= i < |m| ==> j < |m[i]|
    ensures |c| == |m|
    ensures forall i :: 0 <= i < |m| ==> c[i] == m[i][j]
  {
    seq(|m|, i requires 0 <= i < |m| => m[i][j])
  }

  /** The matrix product a·b, where b has `cols` columns. */
  function MatMul(a: Matrix, b: Matrix, cols: nat): (r: Matrix)
    requires forall i :: 0 <= i < |a| ==> |a[i]| == |b|
    requires IsMatrix(b, |b|, cols)
    ensures IsMatrix(r, |a|, cols)
    ensures forall i, j :: 0 <= i < |a| && 0 <= j < cols ==> r[i][j] == Dot(a[i], Column(b, j))
  {
    seq(|a|, i requires 0 <= i < |a| =>
      seq(cols, j requires 0 <= j < cols => Dot(a[i], Column(b, j))))
  }

  function Transpose(m: Matrix, cols: nat): (t: Matrix)
    requires IsMatrix(m, |m|, cols)
    ensures IsMatrix(t, cols, |m|)
    ensures forall i, j :: 0 <= i < cols && 0 <= j < |m| ==> t[i][j] == m[j][i]
  {
    seq(cols, i requires 0 <= i < cols => Column(m, i))
  }

  function ConjMatrix(m: Matrix): (r: Matrix)
    ensures |r| == |m|
    ensures forall i :: 0 <= i < |m| ==> r[i] == ConjVec(m[i])
  {
    seq(|m|, i requires 0 <= i < |m| => ConjVec(m[i]))
  }

  function AddMatrix(a: Matrix, b: Matrix, cols: nat): (r: Matrix)
    requires IsMatrix(a, |a|, cols) && IsMatrix(b, |a|, cols)
    ensures IsMatrix(r, |a|, cols)
    ensures forall i, j :: 0 <= i < |a| && 0 <= j < cols ==> r[i][j] == Add(a[i][j], b[i][j])
  {
    seq(|a|, i requires 0 <= i < |a| =>
      seq(cols, j requires 0 <= j < cols => Add(a[i][j], b[i][j])))
  }

  function ScaleMatrix(s: real, m: Matrix): (r: Matrix)
    ensures |r| == |m|
    ensures forall i :: 0 <= i < |m| ==> |r[i]| == |m[i]|
    ensures forall i, j :: 0 <= i < |m| && 0 <= j < |m[i]| ==> r[i][j] == Scale(s, m[i][j])
  {
    seq(|m|, i requires 0 <= i < |m| =>
      seq(|m[i]|, j requires 0 <= j < |m[i]| => Scale(s, m[i][j])))
  }

  /** m·v for a column vector v: entry i is row i against v. */
  function MatVec(m: Matrix, v: Vector): (r: Vector)
    requires forall i :: 0 <= i < |m| ==> |m[i]| == |v|
    ensures |r| == |m|
    ensures forall i :: 0 <= i < |m| ==> r[i] == Dot(m[i], v)
  {
    seq(|m|, i requires 0 <= i < |m| => Dot(m[i], v))
  }

  /** The n×n identity, numpy's `eye(n)`. */
  function Identity(n: nat): (r: Matrix)
    ensures IsMatrix(r, n, n)
  {
    seq(n, i => seq(n, j => if i == j then One else Zero))
  }

  /** The exchange matrix J, numpy's `fliplr(eye(n))`: ones on the anti-diagonal. */
  function Exchange(n: nat): (r: Matrix)
    ensures IsMatrix(r, n, n)
  {
    seq(n, i => seq(n, j => if i + j == n - 1 then One else Zero))
  }

  predicate IsSquare(m: Matrix) {
    IsMatrix(m, |m|, |m|)
  }

  /** m equals its own conjugate transpose. */
  predicate Hermitian(m: Matrix) {
    IsSquare(m) && forall i, j :: 0 <= i < |m| && 0 <= j < |m| ==> m[i][j] == Conj(m[j][i])
  }

  /** m equals its own conjugate after reversing both axes (centro-Hermitian). */
  predicate CentroHermitian(m: Matrix) {
    IsSquare(m) &&
    forall i, j {:trigger m[i][j]} :: 0 <= i < |m| && 0 <= j < |m| ==> m[i][j] == Conj(m[|m| - 1 - i][|m| - 1 - j])
  }

  /** m is symmetric about its anti-diagonal. */
  predicate Persymmetric(m: Matrix) {
    IsSquare(m) && forall i, j {:trigger m[i][j]} :: 0 <= i < |m| && 0 <= j < |m| ==> m[i][j] == m[|m| - 1 - j][|m| - 1 - i]
  }

  lemma {:induction false} DotZeroLeft(u: Vector, v: Vector)
    requires |u| == |v|
    requires forall i :: 0 <= i < |u| ==> u[i] == Zero
    ensures Dot(u, v) == Zero
  {
    if |u| > 0 {
      MulUnits(v[0]);
      DotZeroLeft(u[1..], v[1..]);
    }
  }

  lemma {:induction false} DotZeroRight(u: Vector, v: Vector)
    requires |u| == |v|
    requires forall i :: 0 <= i < |v| ==> v[i] == Zero
    ensures Dot(u, v) == Zero
  {
    if |u| > 0 {
      MulUnits(u[0]);
      DotZeroRight(u[1..], v[1..]);
    }
  }

  /** A row with a single one at k picks entry k of the other operand. */
  lemma {:induction false} DotOneHotLeft(u: Vector, v: Vector, k: nat)
    requires |u| == |v| && k < |u|
    requires u[k] == One
    requires forall i :: 0 <= i < |u| && i != k ==> u[i] == Zero
    ensures Dot(u, v) == v[k]
  {
    MulUnits(v[0]);
    if k == 0 {
      DotZeroLeft(u[1..], v[1..]);
    } else {
      DotOneHotLeft(u[1..], v[1..], k - 1);
    }
  }

  lemma {:induction false} DotOneHotRight(u: Vector, v: Vector, k: nat)
    requires |u| == |v| && k < |v|
    requires v[k] == One
    requires forall i :: 0 <= i < |v| && i != k ==> v[i] == Zero
    ensures Dot(u, v) == u[k]
  {
    MulUnits(u[0]);
    if k == 0 {
      DotZeroRight(u[1..], v[1..]);
    } else {
      DotOneHotRight(u[1..], v[1..], k - 1);
    }
  }

  /** conj(Σ u[k]·conj(v[k])) = Σ v[k]·conj(u[k]). */
  lemma {:induction false} DotConjSwap(u: Vector, v: Vector)
    requires |u| == |v|
    ensures Conj(Dot(u, ConjVec(v))) == Dot(v, ConjVec(u))
  {
    if |u| > 0 {
      assert ConjVec(v)[1..] == ConjVec(v[1..]);
      assert ConjVec(u)[1..] == ConjVec(u[1..]);
      DotConjSwap(u[1..], v[1..]);
      ConjMul(u[0], Conj(v[0]));
      MulComm(Conj(u[0]), v[0]);
    }
  }

  /** Σ u[k]·conj(u[k]) = Σ |u[k]|², a non-negative real. */
  lemma {:induction false} DotConjSelf(u: Vector)
    ensures Dot(u, ConjVec(u)).im == 0.0
    ensures Dot(u, ConjVec(u)).re >= 0.0
  {
    if |u| > 0 {
      assert ConjVec(u)[1..] == ConjVec(u[1..]);
      DotConjSelf(u[1..]);
      MulConjSelf(u[0]);
    }
  }

  /** J·a reverses the rows of a. */
  lemma ExchangeLeft(a: Matrix, cols: nat)
    requires IsMatrix(a, |a|, cols)
    ensures forall i, j :: 0 <= i < |a| && 0 <= j < cols ==>
      MatMul(Exchange(|a|), a, cols)[i][j] == a[|a| - 1 - i][j]
  {
    var n := |a|;
    forall i, j | 0 <= i < n && 0 <= j < cols
      ensures MatMul(Exchange(n), a, cols)[i][j] == a[n - 1 - i][j]
    {
      DotOneHotLeft(Exchange(n)[i], Column(a, j), n - 1 - i);
    }
  }

  /** a·J reverses the columns of a. */
  lemma ExchangeRight(a: Matrix, n: nat)
    requires IsMatrix(a, |a|, n)
    ensures forall i, j :: 0 <= i < |a| && 0 <= j < n ==>
      MatMul(a, Exchange(n), n)[i][j] == a[i][n - 1 - j]
  {
    forall i, j | 0 <= i < |a| && 0 <= j < n
      ensures MatMul(a, Exchange(n), n)[i][j] == a[i][n - 1 - j]
    {
      DotOneHotRight(a[i], Column(Exchange(n), j), n - 1 - j);
    }
  }

  /** The exchange matrix is an involution: J·J = I. */
  lemma ExchangeInvolution(n: nat)
    ensures MatMul(Exchange(n), Exchange(n), n) == Identity(n)
  {
    var jj := MatMul(Exchange(n), Exchange(n), n);
    ExchangeLeft(Exchange(n), n);
    forall i | 0 <= i < n
      ensures jj[i] == Identity(n)[i]
    {
      assert forall j :: 0 <= j < n ==> jj[i][j] == Identity(n)[i][j];
    }
  }
}

=== FILE: ndarrays.dfy ===
/** numpy arrays of complex entries, by rank: the shapes the array helpers distinguish. */
module NdArrays {
  import opened ComplexNumbers
  import opened Matrices

  /** A rank-1 array, a rank-2 array with its column count (which an empty row list
      cannot carry), or an array of rank three or more stored flat in row-major order. */
  datatype NdArray =
    | Vec(entries: Vector)
    | Mat(cols: nat, rows: Matrix)
    | Tensor(shape: seq<nat>, flat: Vector)

  function Product(dims: seq<nat>): nat {
    if |dims| == 0 then 1 else dims[0] * Product(dims[1..])
  }

  predicate WellFormed(a: NdArray) {
    match a
    case Vec(_) => true
    case Mat(cols, rows) => IsMatrix(rows, |rows|, cols)
    case Tensor(shape, flat) => |shape| >= 3 && |flat| == Product(shape)
  }

  /** numpy's `a.size`: the number of entries. */
  function Size(a: NdArray): nat {
    match a
    case Vec(v) => |v|
    case Mat(cols, rows) => |rows| * cols
    case Tensor(shape, _) => Product(shape)
  }

  /** numpy's `a.shape[0]`. */
  function Leading(a: NdArray): nat {
    match a
    case Vec(v) => |v|
    case Mat(_, rows) => |rows|
    case Tensor(shape, _) => if |shape| == 0 then 0 else shape[0]
  }

  /** `s * v` entry by entry. */
  function ScaleVec(s: Complex, v: Vector): (r: Vector)
    ensures |r| == |v|
    ensures forall j :: 0 <= j < |v| ==> r[j] == Mul(s, v[j])
  {
    seq(|v|, j requires 0 <= j < |v| => Mul(s, v[j]))
  }

  /** Blocks joined end to end along the first axis (`vstack` / `concatenate`). */
  function Concat<T>(blocks: seq<seq<T>>): seq<T> {
    if |blocks| == 0 then [] else blocks[0] + Concat(blocks[1..])
  }

  /** Joining equal-length blocks of n entries gives |blocks| * n entries. */
  lemma {:induction false} ConcatLength<T>(blocks: seq<seq<T>>, n: nat)
    requires forall i :: 0 <= i < |blocks| ==> |blocks[i]| == n
    ensures |Concat(blocks)| == |blocks| * n
  {
    if |blocks| > 0 {
      ConcatLength(blocks[1..], n);
      BlockShift(|blocks|, n, 0);
    }
  }

  /** ...and puts entry k of block i at index i * n + k. */
  lemma {:induction false} ConcatAt<T>(blocks: seq<seq<T>>, n: nat, i: nat, k: nat)
    requires forall j :: 0 <= j < |blocks| ==> |blocks[j]| == n
    requires i < |blocks| && k < n
    ensures i * n + k < |Concat(blocks)| && Concat(blocks)[i * n + k] == blocks[i][k]
  {
    var rest := blocks[1..];
    ConcatLength(rest, n);
    assert Concat(blocks) == blocks[0] + Concat(rest);
    if i > 0 {
      ConcatAt(rest, n, i - 1, k);
      BlockShift(i, n, k);
      assert rest[i - 1] == blocks[i];
    }
  }

  lemma BlockShift(i: nat, n: nat, k: nat)
    requires i >= 1
    ensures i * n + k == n + ((i - 1) * n + k)
  {
    assert (i - 1) * n == i * n - n;
  }
}

=== FILE: params.dfy ===
/** The configuration resolver (`parse_config`): every physical constant of the
    radar derived from the raw configuration dictionary. The module-level `PARAMS`
    singleton of params.py becomes an immutable record; switching mode builds a new one. */
module Params {
  import opened Errors
  import opened ConfigFile

  /** Speed of light, m/s. */
  const SpeedOfLight: real := 299792458.0
  const NumAzimuthBins: int := 64
  const NumElevationBins: int := 32
  /** Share of the maximum range reported as unambiguous. */
  const UnambiguousShare: real := 0.9

  /** RECORD_MODE = 1 reads the configuration script; PLAYBACK_MODE = 2 takes a saved dictionary. */
  datatype Mode = Record | Playback

  /** Python's `int()` on a float: truncation toward zero. */
  function Trunc(x: real): (n: int)
    ensures x >= 0.0 ==> 0 <= n && n as real <= x < n as real + 1.0
    ensures x < 0.0 ==> n <= 0 && n as real - 1.0 < x <= n as real
  {
    if x >= 0.0 then x.Floor else -((-x).Floor)
  }

  /** Every key `parse_config` looks up is present. */
  predicate HasRequiredKeys(cfg: Config) {
    && "NUM_TX" in cfg && "NUM_RX" in cfg && "START_FREQ" in cfg && "IDLE_TIME" in cfg
    && "RAMP_END_TIME" in cfg && "ADC_START_TIME" in cfg && "FREQ_SLOPE" in cfg
    && "ADC_SAMPLES" in cfg && "SAMPLE_RATE" in cfg && "RX_GAIN" in cfg
    && "CHIRP_LOOPS" in cfg && "PERIODICITY" in cfg
  }

  /** The keys `parse_config` looks up, in the order it looks them up. */
  const RequiredKeys: seq<string> := [
    "NUM_TX", "NUM_RX", "START_FREQ", "IDLE_TIME", "RAMP_END_TIME", "ADC_START_TIME",
    "FREQ_SLOPE", "ADC_SAMPLES", "SAMPLE_RATE", "RX_GAIN", "CHIRP_LOOPS", "PERIODICITY"]

  /** The first lookup of `parse_config` that raises KeyError: the missing key
      comes first in lookup order, and every key before it is present. */
  function FirstMissing(cfg: Config): (r: Option<string>)
    ensures r.None? <==> HasRequiredKeys(cfg)
    ensures r.Some? ==> r.value !in cfg
    ensures r.Some? ==> exists k :: && 0 <= k < |RequiredKeys| && RequiredKeys[k] == r.value
                                    && forall j :: 0 <= j < k ==> RequiredKeys[j] in cfg
  {
    RequiredKeysListed(cfg);
    FirstAbsent(RequiredKeys, cfg)
  }

  /** HasRequiredKeys is presence of every listed key. */
  lemma RequiredKeysListed(cfg: Config)
    ensures HasRequiredKeys(cfg) <==> forall i :: 0 <= i < |RequiredKeys| ==> RequiredKeys[i] in cfg
  {
    assert RequiredKeys[0] == "NUM_TX" && RequiredKeys[1] == "NUM_RX" && RequiredKeys[2] == "START_FREQ";
    assert RequiredKeys[3] == "IDLE_TIME" && RequiredKeys[4] == "RAMP_END_TIME" && RequiredKeys[5] == "ADC_START_TIME";
    assert RequiredKeys[6] == "FREQ_SLOPE" && RequiredKeys[7] == "ADC_SAMPLES" && RequiredKeys[8] == "SAMPLE_RATE";
    assert RequiredKeys[9] == "RX_GAIN" && RequiredKeys[10] == "CHIRP_LOOPS" && RequiredKeys[11] == "PERIODICITY";
  }

  /** The raw fields, converted to SI units (ms for the periodicity). */
  datatype ChirpConfig = ChirpConfig(
    txAntennas: int,            // TX_ANTENNAS
    rxAntennas: int,            // RX_ANTENNAS
    startFreq: real,            // fc, Hz
    idleTime: real,             // Tc, s
    rampEndTime: real,          // Tr, s
    adcStartTime: real,         // ADC_START_TIME, s
    slope: real,                // k, Hz/s
    adcSamples: int,            // ADC_SAMPLES
    sampleRateKsps: real,       // FS, ksps
    rxGain: real,               // RX_GAIN, dB
    chirpLoops: int,            // CHIRP_LOOPS
    periodicity: real,          // Tperiodicity, ms
    sampleRate: real)           // fs, Hz

  datatype Timing = Timing(
    wavelength: real,           // lmbda, m
    chirpTime: real,            // Tchirp, s
    chirpSeparation: real,      // Tsep_chirp: time between two chirps of one antenna, s
    minPeriodicity: real,       // MIN_PERIODICITY, ms
    chirpsPerFrame: int)        // CHIRPS_PER_FRAME

  datatype RangeParams = RangeParams(
    numRangeBins: int,          // NUM_RANGE_BINS
    slopeFromSteps: real,       // k_temp
    samplingTime: real,         // Ts, s
    sampledBandwidth: real,     // B1, Hz
    bandwidth: real,            // B2, Hz
    rangeBin: real,             // R_BIN, m
    rangeMax: real,             // R_MAX, m
    rangeMaxUnambiguous: real)  // R_MAX_UNAMBIGUOUS, m

  datatype DopplerParams = DopplerParams(
    numDopplerBins: int,        // NUM_DOPPLER_BINS
    dopplerBin: real,           // DOPPLER_BIN, m/s
    dopplerMax: real)           // DOPPLER_MAX, m/s

  /** The resolved configuration: the record the pipeline reads its constants from. */
  datatype RadarParams = RadarParams(
    mode: Mode,
    config: Config,
    chirp: ChirpConfig,
    timing: Timing,
    range: RangeParams,
    doppler: DopplerParams,
    numAzimuthBins: int,        // NUM_AZIM_BINS
    numElevationBins: int)      // NUM_ELEV_BINS

  /** The fields read from the dictionary and their unit conversions. */
  function ReadChirpConfig(cfg: Config): (c: ChirpConfig)
    requires HasRequiredKeys(cfg)
    ensures c.slope == cfg["FREQ_SLOPE"] * 1000000000000.0
    ensures c.startFreq == cfg["START_FREQ"] * 1000000000.0
    ensures c.sampleRate == cfg["SAMPLE_RATE"] * 1000.0
    ensures c.idleTime == cfg["IDLE_TIME"] * 0.000001
    ensures c.rampEndTime == cfg["RAMP_END_TIME"] * 0.000001
    ensures c.txAntennas == Trunc(cfg["NUM_TX"])
    ensures c.adcSamples == Trunc(cfg["ADC_SAMPLES"])
    ensures c.chirpLoops == Trunc(cfg["CHIRP_LOOPS"])
    ensures c.rxAntennas == Trunc(cfg["NUM_RX"])
    ensures c.adcStartTime == cfg["ADC_START_TIME"] * 0.000001
    ensures c.sampleRateKsps == cfg["SAMPLE_RATE"]
    ensures c.rxGain == cfg["RX_GAIN"]
    ensures c.periodicity == cfg["PERIODICITY"]
  {
    ChirpConfig(
      Trunc(cfg["NUM_TX"]),
      Trunc(cfg["NUM_RX"]),
      cfg["START_FREQ"] * 1000000000.0,
      cfg["IDLE_TIME"] * 0.000001,
      cfg["RAMP_END_TIME"] * 0.000001,
      cfg["ADC_START_TIME"] * 0.000001,
      cfg["FREQ_SLOPE"] * 1000000.0 / 0.000001,
      Trunc(cfg["ADC_SAMPLES"]),
      cfg["SAMPLE_RATE"],
      cfg["RX_GAIN"],
      Trunc(cfg["CHIRP_LOOPS"]),
      cfg["PERIODICITY"],
      cfg["SAMPLE_RATE"] * 1000.0)
  }

  /** B2 = k · Tr: the bandwidth swept during the ramp. */
  function Bandwidth(c: ChirpConfig): real {
    c.slope * c.rampEndTime
  }

  /** Tsep_chirp = (Tc + Tr) · TX. */
  function ChirpSeparation(c: ChirpConfig): real {
    (c.idleTime + c.rampEndTime) * c.txAntennas as real
  }

  predicate TimingConsistent(c: ChirpConfig, t: Timing) {
    && t.wavelength * c.startFreq == SpeedOfLight
    && t.chirpTime == c.idleTime + c.rampEndTime
    && t.chirpSeparation == t.chirpTime * c.txAntennas as real
    && t.chirpsPerFrame == c.chirpLoops * c.txAntennas
    && t.minPeriodicity == t.chirpSeparation * c.chirpLoops as real * 1000.0
  }

  predicate RangeConsistent(c: ChirpConfig, r: RangeParams) {
    && r.numRangeBins == c.adcSamples
    && r.slopeFromSteps * (3600000000.0 * 900.0) == 48.0 * c.slope * 67108864.0 * 1000.0
    && r.samplingTime * c.sampleRate == c.adcSamples as real
    && r.sampledBandwidth == r.slopeFromSteps * r.samplingTime
    && r.bandwidth == c.slope * c.rampEndTime
    && r.rangeBin * (2.0 * r.bandwidth) == SpeedOfLight
    && r.rangeMax == r.rangeBin * r.numRangeBins as real
    && r.rangeMaxUnambiguous == UnambiguousShare * r.rangeMax
  }

  predicate DopplerConsistent(c: ChirpConfig, t: Timing, d: DopplerParams) {
    && d.numDopplerBins == c.chirpLoops
    && d.dopplerBin * (2.0 * c.chirpLoops as real * t.chirpSeparation) == t.wavelength
    && d.dopplerMax * (4.0 * t.chirpSeparation) == t.wavelength
  }

  /** The physical relations between the derived quantities. */
  predicate Consistent(p: RadarParams) {
    && TimingConsistent(p.chirp, p.timing)
    && RangeConsistent(p.chirp, p.range)
    && DopplerConsistent(p.chirp, p.timing, p.doppler)
    && p.numAzimuthBins == NumAzimuthBins
    && p.numElevationBins == NumElevationBins
  }

  /** None of the four divisions of `parse_config` divides by zero
      (wavelength, sampling time, range bin, Doppler bin, in that order). */
  predicate Divisible(c: ChirpConfig) {
    && c.startFreq != 0.0
    && c.sampleRate != 0.0
    && 2.0 * Bandwidth(c) != 0.0
    && 2.0 * c.chirpLoops as real * ChirpSeparation(c) != 0.0
  }

  /** What `parse_config` needs to finish: every key present, no division by zero. */
  predicate Resolvable(cfg: Config) {
    HasRequiredKeys(cfg) && Divisible(ReadChirpConfig(cfg))
  }

  /** The same condition on the raw dictionary: nonzero start frequency, sample rate,
      slope and ramp time, at least one chirp loop and one transmitter, and a
      nonzero chirp duration. A negative slope or duration does not fail. */
  lemma ResolvableExactly(cfg: Config)
    requires HasRequiredKeys(cfg)
    ensures Resolvable(cfg) <==>
      && cfg["START_FREQ"] != 0.0
      && cfg["SAMPLE_RATE"] != 0.0
      && cfg["FREQ_SLOPE"] != 0.0
      && cfg["RAMP_END_TIME"] != 0.0
      && (cfg["CHIRP_LOOPS"] >= 1.0 || cfg["CHIRP_LOOPS"] <= -1.0)
      && (cfg["NUM_TX"] >= 1.0 || cfg["NUM_TX"] <= -1.0)
      && cfg["IDLE_TIME"] + cfg["RAMP_END_TIME"] != 0.0
  {
    var c := ReadChirpConfig(cfg);
    ProductZero(c.slope, c.rampEndTime);
    ProductZero(c.idleTime + c.rampEndTime, c.txAntennas as real);
    ProductZero(2.0 * c.chirpLoops as real, ChirpSeparation(c));
    assert c.rampEndTime == 0.0 <==> cfg["RAMP_END_TIME"] == 0.0;
    assert c.idleTime + c.rampEndTime == 0.0 <==> cfg["IDLE_TIME"] + cfg["RAMP_END_TIME"] == 0.0;
  }

  lemma ProductZero(a: real, b: real)
    ensures a * b == 0.0 <==> a == 0.0 || b == 0.0
  {
  }

  /** The timing block of `parse_config`; the wavelength divides by fc. */
  function DeriveTiming(c: ChirpConfig): (t: Timing)
    requires c.startFreq != 0.0
    ensures TimingConsistent(c, t)
  {
    var tChirp := c.idleTime + c.rampEndTime;
    Timing(
      SpeedOfLight / c.startFreq,
      tChirp,
      tChirp * c.txAntennas as real,
      tChirp * c.chirpLoops as real * c.txAntennas as real * 1000.0,
      c.chirpLoops * c.txAntennas)
  }

  /** The range block; divides by fs (for Ts) and by 2 B2 (for R_BIN). */
  function DeriveRange(c: ChirpConfig): (r: RangeParams)
    requires c.sampleRate != 0.0 && 2.0 * Bandwidth(c) != 0.0
    ensures RangeConsistent(c, r)
  {
    var kTemp := 48.0 * c.slope * 67108864.0 * 1000.0 / (3600000000.0 * 900.0);
    var ts := c.adcSamples as real / c.sampleRate;
    var b2 := Bandwidth(c);
    var rBin := SpeedOfLight / (2.0 * b2);
    var rMax := rBin * c.adcSamples as real;
    RangeParams(c.adcSamples, kTemp, ts, kTemp * ts, b2, rBin, rMax, UnambiguousShare * rMax)
  }

  /** The Doppler block; divides by 2 · CHIRP_LOOPS · Tsep and by 4 · Tsep. */
  function DeriveDoppler(c: ChirpConfig, t: Timing): (d: DopplerParams)
    requires 2.0 * c.chirpLoops as real * t.chirpSeparation != 0.0
    ensures DopplerConsistent(c, t, d)
  {
    DopplerParams(
      c.chirpLoops,
      t.wavelength / (2.0 * c.chirpLoops as real * t.chirpSeparation),
      t.wavelength / (4.0 * t.chirpSeparation))
  }

  /** `parse_config`, for the given mode and dictionary. */
  function Resolve(mode: Mode, cfg: Config): (r: Result<RadarParams>)
    ensures r.Ok? <==> Resolvable(cfg)
    ensures r.Ok? ==> r.value.mode == mode && r.value.config == cfg
    ensures r.Ok? ==> HasRequiredKeys(cfg) && r.value.chirp == ReadChirpConfig(cfg) && Consistent(r.value)
    ensures FirstMissing(cfg).Some? ==> r == Err(MissingKey(FirstMissing(cfg).value))
    ensures HasRequiredKeys(cfg) && !Resolvable(cfg) ==> r.Err? && r.error.DivisionByZero?
  {
    match FirstMissing(cfg)
    case Some(key) => Err(MissingKey(key))
    case None => Derive(mode, cfg, ReadChirpConfig(cfg))
  }

  /** The divisions of `parse_config` once every key has been read: the first
      zero divisor fails, otherwise the three derived blocks are filled in. */
  function Derive(mode: Mode, cfg: Config, c: ChirpConfig): (r: Result<RadarParams>)
    ensures r.Ok? <==> Divisible(c)
    ensures r.Err? ==> r.error.DivisionByZero?
    ensures r.Ok? ==> r.value.mode == mode && r.value.config == cfg && r.value.chirp == c && Consistent(r.value)
  {
    if c.startFreq == 0.0 then Err(DivisionByZero("lmbda"))
    else if c.sampleRate == 0.0 then Err(DivisionByZero("Ts"))
    else if 2.0 * Bandwidth(c) == 0.0 then Err(DivisionByZero("R_BIN"))
    else
      var t := DeriveTiming(c);
      assert t.chirpSeparation == ChirpSeparation(c);
      if 2.0 * c.chirpLoops as real * t.chirpSeparation == 0.0 then Err(DivisionByZero("DOPPLER_BIN"))
      else
        Ok(RadarParams(mode, cfg, c, t, DeriveRange(c), DeriveDoppler(c, t), NumAzimuthBins, NumElevationBins))
  }

  /** `set_playback_mode`: the whole record is rebuilt from the saved dictionary. */
  function SetPlaybackMode(cfg: Config): (r: Result<RadarParams>)
    ensures r.Ok? <==> Resolvable(cfg)
    ensures r.Ok? ==> r.value.mode == Playback && r.value.config == cfg
    ensures r.Ok? ==> r.value.chirp == ReadChirpConfig(cfg) && Consistent(r.value)
    ensures FirstMissing(cfg).Some? ==> r == Err(MissingKey(FirstMissing(cfg).value))
    ensures HasRequiredKeys(cfg) && !Resolvable(cfg) ==> r.Err? && r.error.DivisionByZero?
  {
    Resolve(Playback, cfg)
  }

  /** `set_record_mode`: parse the configuration script, then resolve it. The
      transmitter count comes from the three enable flags, never from the file. */
  function SetRecordMode(file: seq<string>, parseNumber: string -> Option<real>): (r: Result<RadarParams>)
    ensures r.Ok? <==>
      ConfigFile.ParseConfigFile(file, parseNumber).Ok? && Resolvable(ConfigFile.ParseConfigFile(file, parseNumber).value)
    ensures r.Ok? ==>
      && r.value.config == ConfigFile.ParseConfigFile(file, parseNumber).value
      && r.value.chirp == ReadChirpConfig(r.value.config)
    ensures r.Ok? ==>
      && r.value.mode == Record
      && Consistent(r.value)
      && (forall key :: key in ["TX0_EN", "TX1_EN", "TX2_EN"] ==> key in r.value.config)
      && r.value.chirp.txAntennas == Trunc(r.value.config["TX0_EN"] + r.value.config["TX1_EN"] + r.value.config["TX2_EN"])
    ensures ConfigFile.ParseConfigFile(file, parseNumber).Err? ==>
      r == Err(ConfigFile.ParseConfigFile(file, parseNumber).error)
    ensures ConfigFile.ParseConfigFile(file, parseNumber).Ok? ==>
      var cfg := ConfigFile.ParseConfigFile(file, parseNumber).value;
      && (FirstMissing(cfg).Some? ==> r == Err(MissingKey(FirstMissing(cfg).value)))
      && (HasRequiredKeys(cfg) && !Resolvable(cfg) ==> r.Err? && r.error.DivisionByZero?)
  {
    var cfg :- ConfigFile.ParseConfigFile(file, parseNumber);
    Resolve(Record, cfg)
  }

  /** Record mode is playback of the dictionary the script parses to: the two
      agree on success and failure, and differ only in the mode they record. */
  lemma RecordIsPlaybackOfParsedFile(file: seq<string>, parseNumber: string -> Option<real>)
    requires ConfigFile.ParseConfigFile(file, parseNumber).Ok?
    ensures var cfg := ConfigFile.ParseConfigFile(file, parseNumber).value;
      && (SetRecordMode(file, parseNumber).Ok? <==> SetPlaybackMode(cfg).Ok?)
      && (SetRecordMode(file, parseNumber).Ok? ==>
            SetRecordMode(file, parseNumber).value == SetPlaybackMode(cfg).value.(mode := Record))
      && (SetRecordMode(file, parseNumber).Err? ==> SetRecordMode(file, parseNumber) == SetPlaybackMode(cfg))
  {
    var cfg := ConfigFile.ParseConfigFile(file, parseNumber).value;
    assert SetRecordMode(file, parseNumber) == Resolve(Record, cfg);
    ModeIsRecordedOnly(cfg);
  }

  /** The mode is carried along and affects nothing else `parse_config` computes. */
  lemma ModeIsRecordedOnly(cfg: Config)
    ensures Resolve(Record, cfg).Ok? <==> Resolve(Playback, cfg).Ok?
    ensures Resolve(Record, cfg).Ok? ==> Resolve(Record, cfg).value == Resolve(Playback, cfg).value.(mode := Record)
    ensures Resolve(Record, cfg).Err? ==> Resolve(Record, cfg) == Resolve(Playback, cfg)
  {
    if FirstMissing(cfg).None? {
      DeriveModeOnly(cfg, ReadChirpConfig(cfg));
    }
  }

  /** The divisions do not look at the mode. */
  lemma DeriveModeOnly(cfg: Config, c: ChirpConfig)
    ensures Derive(Record, cfg, c).Ok? ==> Derive(Record, cfg, c).value == Derive(Playback, cfg, c).value.(mode := Record)
    ensures Derive(Record, cfg, c).Err? ==> Derive(Record, cfg, c) == Derive(Playback, cfg, c)
  {
  }

  /** The maximum Doppler speed is half the Doppler span: DOPPLER_BIN · CHIRP_LOOPS / 2. */
  lemma DopplerMaxIsHalfSpan(p: RadarParams)
    requires Consistent(p)
    ensures p.doppler.dopplerMax == p.doppler.dopplerBin * p.chirp.chirpLoops as real / 2.0
  {
    var t := p.timing.chirpSeparation;
    var l := p.chirp.chirpLoops as real;
    var vMax := p.doppler.dopplerMax;
    var bin := p.doppler.dopplerBin;
    assert p.timing.wavelength != 0.0;
    assert t != 0.0;
    assert vMax * (4.0 * t) == bin * (2.0 * l * t);
    assert (vMax * 2.0 - bin * l) * t == 0.0;
    ProductZero(vMax * 2.0 - bin * l, t);
  }

  /** R_MAX_UNAMBIGUOUS = 0.9 · R_MAX is strictly below R_MAX exactly when R_MAX is
      positive, which a positive bandwidth and sample count guarantee. */
  lemma UnambiguousRangeBelowMax(p: RadarParams)
    requires Consistent(p)
    ensures p.range.rangeMaxUnambiguous < p.range.rangeMax <==> p.range.rangeMax > 0.0
    ensures p.range.bandwidth > 0.0 && p.chirp.adcSamples > 0 ==> p.range.rangeMax > 0.0
  {
    var r := p.range;
    if r.bandwidth > 0.0 {
      assert r.rangeBin > 0.0;
      if p.chirp.adcSamples > 0 {
        assert r.rangeBin * r.numRangeBins as real > 0.0;
      }
    }
  }
}

=== FILE: text.dfy ===
/** The few Python string operations the configuration parser relies on. */
module Text {

  /** sep occurs in s starting at index i. */
  predicate OccursAt(s: string, sep: string, i: nat) {
    i + |sep| <= |s| && s[i..i + |sep|] == sep
  }

  predicate Contains(s: string, sep: string) {
    exists i: nat | i <= |s| :: OccursAt(s, sep, i)
  }

  /** Python's `s.split(sep)`: cut at every occurrence of sep, scanning left to right. */
  function Split(s: string, sep: string): (parts: seq<string>)
    requires |sep| > 0
    ensures |parts| >= 1
    decreases |s|
  {
    if |s| < |sep| then [s]
    else if s[..|sep|] == sep then [""] + Split(s[|sep|..], sep)
    else
      var rest := Split(s[1..], sep);
      [[s[0]] + rest[0]] + rest[1..]
  }

  /** Python's `sep.join(parts)`. */
  function Join(parts: seq<string>, sep: string): string
    requires |parts| >= 1
  {
    if |parts| == 1 then parts[0] else parts[0] + sep + Join(parts[1..], sep)
  }

  /** Python's `s[:-1]`: everything but the last character; "" stays "". */
  function DropLast(s: string): (r: string)
    ensures |s| > 0 ==> |r| == |s| - 1 && s == r + [s[|s| - 1]]
    ensures |s| == 0 ==> r == ""
  {
    if |s| == 0 then "" else s[..|s| - 1]
  }

  /** Joining the pieces of a split with the same separator gives back the string. */
  lemma {:induction false} SplitJoin(s: string, sep: string)
    requires |sep| > 0
    ensures Join(Split(s, sep), sep) == s
    decreases |s|
  {
    if |s| < |sep| {
    } else if s[..|sep|] == sep {
      SplitJoin(s[|sep|..], sep);
      JoinEmptyHead(Split(s[|sep|..], sep), sep);
      assert s == sep + s[|sep|..];
    } else {
      SplitJoin(s[1..], sep);
      JoinExtendHead(s[0], Split(s[1..], sep), sep);
      assert s == [s[0]] + s[1..];
    }
  }

  /** An empty first piece contributes only its separator. */
  lemma JoinEmptyHead(parts: seq<string>, sep: string)
    requires |parts| >= 1
    ensures Join([""] + parts, sep) == sep + Join(parts, sep)
  {
    assert ([""] + parts)[1..] == parts;
  }

  /** A character put in front of the first piece comes out in front of the join. */
  lemma JoinExtendHead(c: char, parts: seq<string>, sep: string)
    requires |parts| >= 1
    ensures Join([[c] + parts[0]] + parts[1..], sep) == [c] + Join(parts, sep)
  {
    var extended := [[c] + parts[0]] + parts[1..];
    if |parts| > 1 {
      assert extended[1..] == parts[1..];
      assert ([c] + parts[0]) + sep + Join(parts[1..], sep) == [c] + (parts[0] + sep + Join(parts[1..], sep));
    }
  }

  /** The first piece is the text up to the first separator: a prefix of s. */
  lemma {:induction false} SplitHeadIsPrefix(s: string, sep: string)
    requires |sep| > 0
    ensures |Split(s, sep)[0]| <= |s|
    ensures Split(s, sep)[0] == s[..|Split(s, sep)[0]|]
    decreases |s|
  {
    if |s| < |sep| {
    } else if s[..|sep|] == sep {
    } else {
      SplitHeadIsPrefix(s[1..], sep);
      var h := Split(s[1..], sep)[0];
      assert [s[0]] + h == s[..|h| + 1];
    }
  }

  /** The first piece ends at the first occurrence of the separator: none starts
      inside it, and when there is a second piece one starts right after it. */
  lemma {:induction false} SplitHeadIsFirst(s: string, sep: string)
    requires |sep| > 0
    ensures forall i :: 0 <= i < |Split(s, sep)[0]| ==> !OccursAt(s, sep, i)
    ensures |Split(s, sep)| > 1 ==> OccursAt(s, sep, |Split(s, sep)[0]|)
    decreases |s|
  {
    if |s| < |sep| {
    } else if s[..|sep|] == sep {
      assert OccursAt(s, sep, 0);
    } else {
      var rest := Split(s[1..], sep);
      SplitHeadIsFirst(s[1..], sep);
      forall i | 0 <= i < |Split(s, sep)[0]|
        ensures !OccursAt(s, sep, i)
      {
        if i > 0 {
          OccursInTail(s, sep, i - 1);
        }
      }
      if |rest| > 1 {
        OccursInTail(s, sep, |rest[0]|);
      }
    }
  }

  /** An occurrence at i > 0 of s is an occurrence at i - 1 of s[1..], and back. */
  lemma OccursInTail(s: string, sep: string, i: nat)
    requires 0 < |s|
    ensures OccursAt(s, sep, i + 1) <==> OccursAt(s[1..], sep, i)
  {
    if i + 1 + |sep| <= |s| {
      assert s[i + 1..i + 1 + |sep|] == s[1..][i..i + |sep|];
    }
  }

  /** The split produces more than one piece exactly when the separator occurs. */
  lemma {:induction false} SplitFindsSeparator(s: string, sep: string)
    requires |sep| > 0
    ensures |Split(s, sep)| > 1 <==> Contains(s, sep)
    decreases |s|
  {
    if |s| < |sep| {
      assert forall i: nat :: !OccursAt(s, sep, i);
    } else if s[..|sep|] == sep {
      assert OccursAt(s, sep, 0);
    } else {
      SplitFindsSeparator(s[1..], sep);
      if Contains(s, sep) {
        var i: nat :| OccursAt(s, sep, i);
        assert i != 0;
        OccursInTail(s, sep, i - 1);
        assert Contains(s[1..], sep);
      }
      if Contains(s[1..], sep) {
        var i: nat :| OccursAt(s[1..], sep, i);
        OccursInTail(s, sep, i);
        assert Contains(s, sep);
      }
    }
  }

  /** No piece of a split contains the separator. */
  lemma {:induction false} SplitPiecesAreFree(s: string, sep: string)
    requires |sep| > 0
    ensures forall k :: 0 <= k < |Split(s, sep)| ==> !Contains(Split(s, sep)[k], sep)
    decreases |s|
  {
    if |s| < |sep| {
      assert forall i: nat :: !OccursAt(s, sep, i);
    } else if s[..|sep|] == sep {
      var rest := Split(s[|sep|..], sep);
      SplitPiecesAreFree(s[|sep|..], sep);
      assert forall i: nat :: !OccursAt("", sep, i);
      assert forall k :: 1 <= k < |[""] + rest| ==> ([""] + rest)[k] == rest[k - 1];
    } else {
      var rest := Split(s[1..], sep);
      SplitPiecesAreFree(s[1..], sep);
      SplitHeadIsPrefix(s[1..], sep);
      var head := [s[0]] + rest[0];
      assert head == s[..|head|];
      forall i: nat | i <= |head|
        ensures !OccursAt(head, sep, i)
      {
        if i > 0 {
          OccursInTail(head, sep, i - 1);
          assert head[1..] == rest[0];
        }
      }
      var parts := [head] + rest[1..];
      assert forall k :: 1 <= k < |parts| ==> parts[k] == rest[k];
    }
  }
}
